=== FILE: README.md ===
# Travel Studio state core in Dafny

Travel Studio is a hotel-explorer web app. A login gate guards an explore page.
That page lists the hotel's amenities and the restaurants nearby, and it shows
both in a 3D scene. Under the React and three.js presentation there is a small,
sequential state core. This project models that core as pure Dafny functions
over immutable records, and proves what it promises:

- **The store** (`Store`, store.dfy). It holds the nine-field application record,
  its initial value and its eight setters. It also holds the four-field record
  that is persisted, with the shallow merge that restores it after a reload.
  `Changed(s, t)` is the set of fields on which two states differ. Every setter
  states which fields it may touch.
- **The restaurant filter** (`ExplorePage`, explore_page.dfy). It models
  - the distance token `split(' ')[0] || '0'`;
  - a restricted `parseFloat` (`JsParse`, jsparse.dfy), where `None` stands for NaN;
  - the four distance buckets;
  - the minimum rating, where a missing rating counts as 0.

  It is an order-preserving filter, built on a generic `Array.prototype.filter`
  (`JsArray`, jsarray.dfy).
- **Selection.** This covers the card clicks, the dismiss button, the "Clear all
  filters" button, the load effect, the detail panel's badge and heading, and the
  lit-star count (`ExplorePage`). It also covers the scene's room click, highlight
  rule, label, scale and the room defaults (`HotelMap3D`, hotel_map.dfy).
- **The login gate** (`AuthGuard`, auth_guard.dfy). It is a two-state machine over
  the store's authentication flag. Browser storage holds the remembered-login key
  and the store's own persisted record, so wiping storage and reloading locks the
  gate again.
- **The fixture** (`ExperienceData`, experience_data.dfy). These are the four amenities
  and four restaurants the mock endpoint returns. The concrete facts about them
  are in `FixtureFacts` (fixture_facts.dfy), and the `DistanceFormat` helpers
  (distance_format.dfy) show how `"<d>.<d> km"` strings parse.

Numbers are Dafny `real`s, which are exact rationals. The only arithmetic in the
core is comparing decimal literals with thresholds. Exact values and doubles
agree on every literal the app holds, but not on a literal that lies within half a
rounding step of a bucket edge (see "## Left out").

## Model

| member | source | states |
|---|---|---|
| Store.Initial | src/store/useStore.ts:43-51 | The initial state has no selection, empty collections, signed out, loading, distance filter "all" and rating filter 0; both room markers are clear, so they are exclusive |
| Store.Changed | src/store/useStore.ts:20-29 | The set of fields on which two states differ is empty exactly when the states are equal |
| Store.SetSelectedExperience | src/store/useStore.ts:52 | The detail becomes the argument and no other field changes |
| Store.SetSelectedInternalRoom | src/store/useStore.ts:53 | The amenity marker becomes the argument and no other field changes |
| Store.SetSelectedExternalRoom | src/store/useStore.ts:54 | The restaurant marker becomes the argument and no other field changes |
| Store.SetExperiences | src/store/useStore.ts:55-56 | Both collections are replaced by exactly the arguments and the other seven fields are unchanged |
| Store.SetAuthenticated | src/store/useStore.ts:57 | The authentication flag becomes the argument and no other field changes |
| Store.SetLoading | src/store/useStore.ts:58 | The loading flag becomes the argument and no other field changes |
| Store.SetDistanceFilter | src/store/useStore.ts:59 | Any string is stored verbatim as the distance filter and no other field changes |
| Store.SetRatingFilter | src/store/useStore.ts:60 | Any number is stored verbatim as the rating filter and no other field changes |
| Store.SettersIdempotent | src/store/useStore.ts:52-60 | Applying any setter twice with the same argument gives the same state as applying it once |
| Store.Partialize | src/store/useStore.ts:64-69 | The persisted record carries the detail, the authentication flag and both filters |
| Store.PartializeDependsOnlyOnPersisted | src/store/useStore.ts:64-69 | Two states persist identically if and only if they differ on none of the four persisted fields |
| Store.TransientSettersPreservePersisted | src/store/useStore.ts:53-69 | Changing the collections, either room marker or the loading flag leaves the persisted record unchanged |
| Store.Rehydrate | src/store/useStore.ts:40-69 | A state restored from a persisted record differs from the initial state only in persisted fields |
| Store.ReloadRoundTrip | src/store/useStore.ts:40-69 | Persisting a restored record gives back the record. A save followed by a reload keeps every persisted field and resets every other field to its initial value |
| Options.OrElse | src/components/HotelMap3D.tsx:61 | JavaScript `a \|\| d` on an optional string: the value when it is present and non-empty, otherwise the default |
| JsParse.FirstToken | src/components/ExplorePage.tsx:44 | `split(' ')[0]` is the longest space-free prefix: it contains no space, and a space follows it unless it is the whole string |
| JsParse.ParseUnsigned | src/components/ExplorePage.tsx:44 | An unsigned decimal prefix is never negative. It is NaN exactly when the text begins with neither a digit nor a point followed by a digit; its value is given by `JsParse.UnsignedDecimal` and `JsParse.UnsignedInteger` |
| JsParse.UnsignedDecimal | src/components/ExplorePage.tsx:44 | An unsigned literal `ip.fp` with a digit on at least one side of the point (`.5` and `5.` included), followed by a non-digit, has the decimal value of `ip.fp` |
| JsParse.UnsignedInteger | src/components/ExplorePage.tsx:44 | A digit string followed by neither a digit nor a point has its integer value |
| JsParse.ParseFloat | src/components/ExplorePage.tsx:44 | `parseFloat` skips leading white space, reads an optional sign and an unsigned literal: it is NaN exactly when the unsigned part is, and otherwise its value is the unsigned value, negated after a `-` |
| JsParse.LeadingSpaceIgnored | src/components/ExplorePage.tsx:44 | White space in front of a token never changes what `parseFloat` returns |
| JsParse.SignedLiteral | src/components/ExplorePage.tsx:44 | A `+` in front of an unsigned literal keeps its value, a `-` negates it, and NaN stays NaN under either sign |
| JsParse.ParseDecimalLiteral | src/components/ExplorePage.tsx:44 | `parseFloat` of `ip.fp` (a digit on at least one side of the point) followed by a non-digit yields the decimal value of `ip.fp` |
| JsParse.ParseIntegerLiteral | src/components/ExplorePage.tsx:44 | `parseFloat` of a digit string followed by neither a digit nor a point yields its integer value |
| JsParse.StrayLeadingCharIsNaN | src/components/ExplorePage.tsx:44 | A token that starts with anything but white space, a sign, a digit or a point parses to NaN |
| ExplorePage.DistanceToken | src/components/ExplorePage.tsx:44 | The token parsed is never empty. A missing distance, or one whose first token is empty, becomes "0"; otherwise it is the first space-separated token |
| ExplorePage.DistanceValue | src/components/ExplorePage.tsx:44 | A missing distance or an empty first token counts as 0; otherwise the distance is `parseFloat` of the first token |
| ExplorePage.RatingValue | src/components/ExplorePage.tsx:50 | A missing rating counts as 0; a present rating is used as given |
| JsArray.Filter | src/components/ExplorePage.tsx:43 | `filter` keeps the passing elements in their original order: a subsequence, holding exactly the members that pass, with every copy of a passing element and no copy of a failing one |
| ExplorePage.DistanceMatch | src/components/ExplorePage.tsx:45-48 | Only the four known filters can match; "all" matches every distance; a NaN distance matches exactly under "all" |
| ExplorePage.Keep | src/components/ExplorePage.tsx:43-52 | A listed restaurant passes both the distance bucket and the minimum rating; a restaurant without a rating is listed only when its distance matches and the threshold is at most 0 |
| ExplorePage.FilterExternal | src/components/ExplorePage.tsx:42-54 | The listed restaurants are a subsequence of the collection, so no longer than it. An entry is listed if and only if it is in the collection and passes both the distance and the rating test, and it is listed as many times as it occurs |
| ExplorePage.Visible | src/components/ExplorePage.tsx:42-54 | The page shows, in collection order, exactly the stored restaurants that pass the store's current distance and rating filters, each as many times as it is stored |
| ExplorePage.FilterIsIdentityIff | src/components/ExplorePage.tsx:43-52 | The filter returns the whole collection if and only if every entry passes |
| ExplorePage.DefaultFiltersShowAll | src/components/ExplorePage.tsx:45-50 | With "all" and 0, every restaurant is listed when no rating is negative; a missing rating counts as 0 |
| ExplorePage.BucketsPartition | src/components/ExplorePage.tsx:46-48 | A parsed distance lies in exactly one of near, medium and far, and NaN lies in none |
| ExplorePage.BucketResultsDisjoint | src/components/ExplorePage.tsx:46-48 | No restaurant is listed under two different buckets, whatever the rating thresholds |
| ExplorePage.BucketCounts | src/components/ExplorePage.tsx:45-48 | When every distance parses, the near, medium and far lists together are exactly as long as the "all" list |
| ExplorePage.NaNMatchesOnlyAll | src/components/ExplorePage.tsx:44-48 | A restaurant whose distance does not parse is listed only under "all" |
| ExplorePage.MissingDistanceIsNear | src/components/ExplorePage.tsx:44-46 | A missing distance or an empty first token parses to 0, so it counts as near |
| ExplorePage.UnknownFilterListsNothing | src/components/ExplorePage.tsx:45-48 | A distance filter other than all, near, medium or far lists nothing |
| ExplorePage.RatingFilterAntitone | src/components/ExplorePage.tsx:50-52 | Raising the minimum rating never adds a restaurant: the stricter list is a subsequence of the looser one |
| ExplorePage.InternalCardClick | src/components/ExplorePage.tsx:56-60 | An amenity click shows the record, sets the amenity marker to its id and clears the restaurant marker. It changes only selection fields, and the markers end up exclusive |
| ExplorePage.ExternalCardClick | src/components/ExplorePage.tsx:62-66 | The mirror image of an amenity click, for restaurants |
| ExplorePage.Dismiss | src/components/ExplorePage.tsx:187 | Closing the detail clears only the detail. Both markers are unchanged, so exclusivity is preserved |
| ExplorePage.ClearFilters | src/components/ExplorePage.tsx:408-411 | The filters become ("all", 0) and nothing else changes |
| ExplorePage.ShowsEmptyState | src/components/ExplorePage.tsx:402 | The "No restaurants found" panel is shown exactly when no stored restaurant passes the current filters |
| ExplorePage.ClearFiltersShowsAll | src/components/ExplorePage.tsx:402-411 | After clearing the filters the whole collection is listed, given non-negative ratings |
| ExplorePage.LoadExperiences | src/components/ExplorePage.tsx:26-40 | Loading always ends with the flag lowered. A successful fetch stores both collections. A rejected one changes only the flag. Nothing but the collections and the flag changes |
| ExplorePage.LoadKeepsSelectionAndFilters | src/components/ExplorePage.tsx:26-54 | Loading leaves the persisted record and both room markers unchanged, and after a successful fetch the list shows the fetched restaurants under the filters already in place |
| ExplorePage.Badge | src/components/ExplorePage.tsx:166-182 | The badge reads "Hotel Amenity" if and only if the title is present and non-empty, and "External Restaurant" otherwise |
| ExplorePage.Heading | src/components/ExplorePage.tsx:174-176 | The heading is the title for an amenity and otherwise the name when that is non-empty; it is empty if and only if neither title nor name is non-empty |
| ExplorePage.LitStars | src/components/ExplorePage.tsx:205-213 | Of the five stars drawn, exactly the first `lit` are lit, where `lit` is the floor of the rating (0 when missing) confined to 0..5 |
| HotelMap3D.RoomPosition | src/components/HotelMap3D.tsx:254-258 | A room without a position is placed at the origin; otherwise at its own position |
| HotelMap3D.RoomColor | src/components/HotelMap3D.tsx:259 | The colour is never empty. A record's own non-empty colour is used as given, and the colour is the default grey exactly when the record has no non-empty colour of its own or its own colour is that grey |
| HotelMap3D.InternalRoom | src/components/HotelMap3D.tsx:251-265 | An amenity's room carries its id, the internal kind, its title when that is non-empty (else the empty title), and the defaulted position and colour |
| HotelMap3D.ExternalRoom | src/components/HotelMap3D.tsx:268-283 | A restaurant's room carries its id and name, the external kind, an empty title, the position its index is given by the layout, and the fixed peach colour `#FED7AA` |
| HotelMap3D.SceneRooms | src/components/HotelMap3D.tsx:251-283 | The scene holds one room per amenity and then one per restaurant, in collection order |
| HotelMap3D.Find | src/components/HotelMap3D.tsx:47-54 | The lookup finds nothing exactly when no record has the id. Otherwise it returns the first record of the list with that id |
| HotelMap3D.IsSelected | src/components/HotelMap3D.tsx:34 | A room is highlighted exactly when the marker of its own category holds its id; while the markers are exclusive, the other category's marker is then clear |
| HotelMap3D.FindMember | src/components/HotelMap3D.tsx:47-54 | With distinct ids, looking up a member's id returns that member |
| HotelMap3D.RoomClick | src/components/HotelMap3D.tsx:43-59 | A room click sets its own category's marker and clears the other. The detail becomes the first record of that category with the id, and stays unchanged when there is none. Only selection fields change, and the markers end up exclusive |
| HotelMap3D.ClickHighlightsOnlyOneCategory | src/components/HotelMap3D.tsx:34-59 | After a click, the clicked room is highlighted. No room of the other category is, and within the category exactly the clicked id is |
| HotelMap3D.ClickedSceneHighlights | src/components/HotelMap3D.tsx:34-283 | In the scene after a click, a room is highlighted if and only if it has the clicked category and id |
| HotelMap3D.RoomClickMatchesCardClick | src/components/HotelMap3D.tsx:43-59 | With distinct ids, clicking a record's room gives the same state as clicking its card |
| HotelMap3D.DisplayTitle | src/components/HotelMap3D.tsx:61 | The label is the title if non-empty, else the name if non-empty, and it is empty exactly when neither is |
| HotelMap3D.RoomLabelMatchesHeading | src/components/HotelMap3D.tsx:61-283 | A room's label agrees with the detail heading of the record it was built from |
| HotelMap3D.Scale | src/components/HotelMap3D.tsx:39 | The scale is 1.2 exactly when hovered, 1.1 when selected and not hovered, and 1 exactly when neither hovered nor selected |
| HotelMap3D.ClickedSceneScales | src/components/HotelMap3D.tsx:34-59 | In the scene after a click, an un-hovered room is drawn at 1.1 exactly when it is the clicked room, and at 1 otherwise |
| HotelMap3D.SceneRoomDefaults | src/components/HotelMap3D.tsx:251-265 | Every amenity room of the scene uses its record's own colour and position when present, and falls back to the grey default or the origin exactly when the record lacks them (or already holds the default) |
| AuthGuard.BeginLogin | src/components/AuthGuard.tsx:13 | Starting a submission raises only the local pending flag |
| AuthGuard.FinishLogin | src/components/AuthGuard.tsx:18-23 | An address with '@' unlocks the store, writes the store's record and the remembered-login key; otherwise store and storage are untouched. The pending flag is lowered either way |
| AuthGuard.HandleLogin | src/components/AuthGuard.tsx:11-24 | After a submission the store is unlocked if and only if it was, or the address contains '@'. An accepted address changes only the flag in the store and only the remembered-login key in storage. A rejected address leaves store and storage unchanged, and the stored record stays the live store's own |
| AuthGuard.Restore | src/components/AuthGuard.tsx:26-32 | On mount the gate unlocks if and only if it was unlocked or storage holds a non-empty value under the key, and then writes the record. Only the flag may change; without a remembered key nothing changes |
| AuthGuard.Render | src/components/AuthGuard.tsx:34-38 | The children are rendered if and only if the store is unlocked; otherwise the login form is |
| AuthGuard.Step | src/components/AuthGuard.tsx:19-30 | No single event locks an unlocked gate |
| AuthGuard.RunMonotone | src/components/AuthGuard.tsx:19-30 | No sequence of events locks an unlocked gate |
| AuthGuard.RunUnlocksIff | src/components/AuthGuard.tsx:11-32 | After any sequence of events the gate is unlocked if and only if it started unlocked or some event unlocks it |
| AuthGuard.Reload | src/components/AuthGuard.tsx:26-32 | A reload rebuilds the store from the record in storage, or from the initial state when there is none. The detail and both filters come from the record; the collections are empty, no marker is set, and loading restarts as pending, so only persisted fields differ from the initial store. The gate is unlocked exactly when the record says so or a login is remembered |
| AuthGuard.Hydrate | src/store/useStore.ts:40-69 | Start-up gives the initial store when nothing is stored, and otherwise a store whose persisted part is exactly the stored record, differing from the initial store only in persisted fields |
| AuthGuard.Commit | src/store/useStore.ts:40-69 | Every store change is followed by writing the new store's persisted record |
| AuthGuard.ReloadInSync | src/components/AuthGuard.tsx:26-35 | While storage holds the live store's record, a reload keeps the detail and both filters, and unlocks exactly when the store was unlocked or a login is remembered |
| AuthGuard.ClearStorage | src/components/AuthGuard.tsx:28-29 | Clearing storage removes the remembered-login key and the store's record, and changes nothing on screen until the next reload |
| AuthGuard.WipedStorageLocksOnReload | src/components/AuthGuard.tsx:28-38 | After storage is cleared, a reload starts from the initial store and shows the login form |
| AuthGuard.LoginSurvivesReload | src/components/AuthGuard.tsx:18-35 | After a successful login, a reload opens straight onto the children, with the filters kept and the collections empty |
| AuthGuard.RememberedKeyUnlocksOnReload | src/components/AuthGuard.tsx:28-35 | Whenever storage remembers a login, a reload renders the children |
| ExperienceData.FetchExperiences | src/pages/api/experiences.ts:3-83 | The endpoint returns four amenities and four restaurants, each list with ids 1 to 4 in order |
| FixtureFacts.InternalIdsUnique | src/pages/api/experiences.ts:10-34 | The amenity ids are 1 to 4 and pairwise distinct |
| FixtureFacts.ExternalIdsUnique | src/pages/api/experiences.ts:44-71 | The restaurant ids are 1 to 4 and pairwise distinct |
| FixtureFacts.IdSpacesOverlap | src/pages/api/experiences.ts:10-44 | Amenity 1 and restaurant 1 share an id, but they are different records |
| FixtureFacts.RatingsInRange | src/pages/api/experiences.ts:47-74 | Every restaurant is rated, between 0 and 5 |
| FixtureFacts.DistancesParse | src/pages/api/experiences.ts:46-73 | The four distances parse to 0.5, 1.2, 0.8 and 0.3 |
| FixtureFacts.FixtureListing | src/pages/api/experiences.ts:42-79 | For any filter settings, the fixture's listing is, restaurant by restaurant, exactly those whose parsed distance matches the bucket and whose rating meets the threshold |
| FixtureFacts.NearOnFixture | src/pages/api/experiences.ts:46-74 | "near" lists restaurants 1 and 4, each while the threshold admits its rating |
| FixtureFacts.MediumOnFixture | src/pages/api/experiences.ts:64-65 | "medium" lists only restaurant 3 |
| FixtureFacts.FarOnFixture | src/pages/api/experiences.ts:55-56 | "far" lists only restaurant 2 |
| FixtureFacts.HighThresholdOnFixture | src/pages/api/experiences.ts:47-74 | A 4.5 threshold lists restaurants 1 and 3 |
| FixtureFacts.LowThresholdOnFixture | src/pages/api/experiences.ts:47-74 | Any threshold up to 4 lists all four restaurants |
| FixtureFacts.ClassificationOnFixture | src/pages/api/experiences.ts:11-50 | Every amenity is badged "Hotel Amenity" and labelled with its title. Every restaurant is badged "External Restaurant" and labelled with its name |
| FixtureFacts.NoRoomUsesDefaults | src/pages/api/experiences.ts:14-39 | Every amenity has its own position and a colour other than the default grey |
| FixtureFacts.SelectAmenityThenRestaurant | src/pages/api/experiences.ts:42-70 | With the fixture loaded, clicking amenity 2 and then restaurant 3 leaves only the restaurant marker set, with Sakura Sushi shown |
| FixtureFacts.ClearAfterEmptyList | src/pages/api/experiences.ts:55-56 | With the fixture loaded, "far" with a 4.5 threshold shows the empty list, and clearing the filters lists all four again |

## Left out

- JSX, styling, icons, the filter panel's visibility toggle, the loading spinner and the 3D scene itself (meshes, lights, orbit controls, cursor changes) are presentation. The loading flag is modelled, but not the view that reads it.
- `getExternalPosition` (src/components/HotelMap3D.tsx:214-221) places restaurants by trigonometry. It becomes a parameter, `place`, of `SceneRooms` and `ExternalRoom`.
- Mesh rotation per frame is not modelled. Hover is an input of `Scale` only.
- The artificial delays (one second in the login, 200 ms in the endpoint) and the asynchrony of the fetch are not modelled. Each operation is one atomic step. A rejected fetch is the `None` argument of `LoadExperiences`, and its `console.error` is left out.
- zustand's subscription and notification machinery, and the JSON serialisation of the persisted record, are not modelled. Of `localStorage`, the string entries (the remembered-login key) are a `map<string, string>`, and the store's entry under `"travel-studio-store"` is an `Option<Persisted>`, already decoded. Persistence is the `Partialize`/`Rehydrate` pair, and `Rehydrate` follows the persistence layer's default shallow merge over the initial state.
- JsParse.ParseFloat: reads only optional white space, an optional sign and a plain decimal literal. Exponents, `Infinity` and Unicode white space are not modelled, because no distance in the app uses them. Hexadecimal needs nothing: like `parseFloat`, the model reads "0x1A" as 0 and stops at the "x".
- JsParse.ParseFloat: returns the exact decimal value, not the nearest double. A literal within half a rounding step of a bucket edge therefore lands in a different bucket: the app rounds "0.50000000000000001 km" to 0.5 and lists it under near, where the model lists it under medium, and likewise "1.00000000000000001 km" is medium in the app but far in the model. On the fixture the model and the app agree: "0.5 km" lies exactly on the near/medium edge, but 0.5 is exactly a double, and the other three distances are far from an edge.
- Numbers are exact reals, not IEEE doubles. NaN is modelled only for the parsed distance. A NaN or non-finite rating, coordinate or position is not representable.
- AuthGuard.Reload: the persistence layer may write the record back right after hydrating. That is not modelled. Written back, the record of a fresh store rehydrates to the same fresh store, so no later reload can tell the difference.
- AuthGuard.Commit: store changes made by the explore page reach storage only when they are applied to a gate through `Commit`. The gate's own operations do this for every change they make.
- RoomPosition: `position?.x || 0` also maps NaN to 0, which is not representable here. For every real coordinate the result is the coordinate itself.
- The email field's browser-side validation (`type="email"`, `required`) is outside the component's code. Only the `'@'` test of the handler is modelled.
- src/pages/Index.tsx only composes the gate around the page, and is not part of this model.
- The restaurant name "Café Delight" appears with a mis-encoded "é" in the endpoint's source text. The model uses the intended spelling.
- The detail panel's rating tile, contact rows and other read-only displays are presentation. Only the badge, heading and lit-star count are modelled.

=== FILE: auth_guard.dfy ===
/**
 * The login gate: a two-state machine (locked, unlocked) over the store's
 * authentication flag. Browser storage holds two entries that matter: the
 * remembered-login key, kept in a plain string map, and the store's own
 * persisted record, kept as a decoded `Persisted` value. The one-second
 * artificial delay of a submission is folded into one step.
 */
module AuthGuard {
  import opened Options
  import opened Store

  /** The storage key that remembers a past login. */
  const AuthKey: string := "travel-studio-auth"

  /** The storage key under which the persistence layer keeps the store's record. */
  const StoreKey: string := "travel-studio-store"

  /**
   * The gate's world: the shared store, the form's local pending flag, the
   * string entries of browser storage, and the store's persisted record under
   * `StoreKey` (`None` when that entry is absent).
   */
  datatype Gate = Gate(store: StoreState, submitting: bool, storage: map<string, string>, saved: Option<Persisted>)

  /** The persisted record is the one the persistence layer writes for the live store. */
  predicate InSync(g: Gate) {
    g.saved == Some(Partialize(g.store))
  }

  /** A store update through a setter: the persistence layer writes the new record. */
  function Commit(g: Gate, t: StoreState): (r: Gate)
    ensures r.store == t && InSync(r)
    ensures r.submitting == g.submitting && r.storage == g.storage
  {
    g.(store := t, saved := Some(Partialize(t)))
  }

  /** What the gate renders. */
  datatype View = LoginForm | Children

  /** `localStorage.getItem(AuthKey)` is truthy: present and non-empty. */
  predicate RemembersLogin(storage: map<string, string>) {
    AuthKey in storage && storage[AuthKey] != ""
  }

  /** The placeholder validity check on the submitted address. */
  predicate AcceptsEmail(email: string) {
    '@' in email
  }

  /** The submission is pending: only the local flag is raised. */
  function BeginLogin(g: Gate): (r: Gate)
    ensures r.submitting
    ensures r.store == g.store && r.storage == g.storage && r.saved == g.saved
  {
    g.(submitting := true)
  }

  /** The submission completes: unlock and remember the login when the address is accepted; lower the flag always. */
  function FinishLogin(g: Gate, email: string): (r: Gate)
    ensures !r.submitting
    ensures AcceptsEmail(email) ==> r.store.isAuthenticated && Changed(g.store, r.store) <= {IsAuthenticated}
    ensures AcceptsEmail(email) ==> r.storage == g.storage[AuthKey := "true"] && InSync(r)
    ensures !AcceptsEmail(email) ==> r.store == g.store && r.storage == g.storage && r.saved == g.saved
  {
    if AcceptsEmail(email) then
      Commit(g, SetAuthenticated(g.store, true)).(submitting := false, storage := g.storage[AuthKey := "true"])
    else
      g.(submitting := false)
  }

  /** One form submission, start to finish. */
  function HandleLogin(g: Gate, email: string): (r: Gate)
    ensures !r.submitting
    ensures r.store.isAuthenticated <==> g.store.isAuthenticated || AcceptsEmail(email)
    ensures AcceptsEmail(email) ==> RemembersLogin(r.storage) && r.storage[AuthKey] == "true"
    ensures AcceptsEmail(email) ==> Changed(g.store, r.store) <= {IsAuthenticated} && r.storage == g.storage[AuthKey := "true"]
    ensures !AcceptsEmail(email) ==> r.store == g.store && r.storage == g.storage && r.saved == g.saved
    ensures InSync(g) ==> InSync(r)
  {
    FinishLogin(BeginLogin(g), email)
  }

  /** The mount effect: a remembered login unlocks; otherwise nothing changes. */
  function Restore(g: Gate): (r: Gate)
    ensures r.storage == g.storage && r.submitting == g.submitting
    ensures r.store.isAuthenticated <==> g.store.isAuthenticated || RemembersLogin(g.storage)
    ensures Changed(g.store, r.store) <= {IsAuthenticated}
    ensures RemembersLogin(g.storage) ==> InSync(r)
    ensures !RemembersLogin(g.storage) ==> r == g
  {
    if RemembersLogin(g.storage) then Commit(g, SetAuthenticated(g.store, true)) else g
  }

  /** Children are rendered exactly when the store says the user is authenticated. */
  function Render(g: Gate): (v: View)
    ensures v == Children <==> g.store.isAuthenticated
  {
    if g.store.isAuthenticated then Children else LoginForm
  }

  /** The events the gate reacts to. */
  datatype Event = Submit(email: string) | Mount

  function Step(g: Gate, ev: Event): (r: Gate)
    ensures g.store.isAuthenticated ==> r.store.isAuthenticated
  {
    match ev
    case Submit(email) => HandleLogin(g, email)
    case Mount => Restore(g)
  }

  function Run(g: Gate, evs: seq<Event>): Gate
    decreases |evs|
  {
    if evs == [] then g else Run(Step(g, evs[0]), evs[1..])
  }

  /** Whether an event unlocks a gate whose storage is `storage`. */
  predicate Unlocks(ev: Event, storage: map<string, string>) {
    match ev
    case Submit(email) => AcceptsEmail(email)
    case Mount => RemembersLogin(storage)
  }

  /** No sequence of events ever locks an unlocked gate. */
  lemma {:induction false} RunMonotone(g: Gate, evs: seq<Event>)
    requires g.store.isAuthenticated
    ensures Run(g, evs).store.isAuthenticated
    decreases |evs|
  {
    if evs != [] {
      RunMonotone(Step(g, evs[0]), evs[1..]);
    }
  }

  /**
   * After a run the gate is unlocked exactly when it started unlocked or some
   * event unlocks it, judged against the storage the run started with.
   */
  lemma {:induction false} RunUnlocksIff(g: Gate, evs: seq<Event>)
    ensures Run(g, evs).store.isAuthenticated
            <==> g.store.isAuthenticated || exists i :: 0 <= i < |evs| && Unlocks(evs[i], g.storage)
    decreases |evs|
  {
    if evs != [] {
      var g1 := Step(g, evs[0]);
      var tail := evs[1..];
      assert forall i :: 0 <= i < |tail| ==> tail[i] == evs[i + 1];
      if Unlocks(evs[0], g.storage) {
        assert g1.store.isAuthenticated;
        RunMonotone(g1, tail);
      } else {
        assert g1.store == g.store && g1.storage == g.storage;
        RunUnlocksIff(g1, tail);
        if exists i :: 0 <= i < |evs| && Unlocks(evs[i], g.storage) {
          var i :| 0 <= i < |evs| && Unlocks(evs[i], g.storage);
          assert i != 0;
          assert Unlocks(tail[i - 1], g1.storage);
        }
      }
    }
  }

  /**
   * `localStorage.clear()`: both entries are gone. The live store and the
   * rendered view are untouched until the next reload.
   */
  function ClearStorage(g: Gate): (r: Gate)
    ensures r.storage == map[] && r.saved == None
    ensures r.store == g.store && r.submitting == g.submitting
    ensures Render(r) == Render(g)
  {
    g.(storage := map[], saved := None)
  }

  /** The store the persistence layer builds on start-up: the initial state, with the saved record merged over it. */
  function Hydrate(saved: Option<Persisted>): (s: StoreState)
    ensures saved.None? ==> s == Initial()
    ensures saved.Some? ==> Partialize(s) == saved.value
    ensures Changed(Initial(), s) <= PersistedFields
  {
    match saved
    case None => Initial()
    case Some(p) => ReloadRoundTrip(Initial(), p); Rehydrate(p)
  }

  /**
   * A page reload: the store is rebuilt from the record in storage (or from
   * the initial state when there is none), the form's local flag starts
   * lowered, storage survives, and the mount effect runs.
   */
  function Reload(g: Gate): (r: Gate)
    ensures r.storage == g.storage && !r.submitting
    ensures r.store.internalExperiences == [] && r.store.externalExperiences == []
    ensures r.store.selectedInternalRoom == None && r.store.selectedExternalRoom == None
    ensures r.store.isLoading
    ensures Changed(Initial(), r.store) <= PersistedFields
    ensures g.saved.Some? ==> r.store.selectedExperience == g.saved.value.selectedExperience
                              && r.store.distanceFilter == g.saved.value.distanceFilter
                              && r.store.ratingFilter == g.saved.value.ratingFilter
    ensures g.saved.None? ==> r.store.selectedExperience == None
                              && r.store.distanceFilter == "all" && r.store.ratingFilter == 0.0
    ensures r.store.isAuthenticated
            <==> (g.saved.Some? && g.saved.value.isAuthenticated) || RemembersLogin(g.storage)
    ensures r.saved.None? <==> g.saved.None? && !RemembersLogin(g.storage)
    ensures r.saved.Some? ==> InSync(r)
  {
    Restore(Gate(Hydrate(g.saved), false, g.storage, g.saved))
  }

  /**
   * While the record in storage is the live store's own, a reload keeps the
   * detail and both filters, and unlocks exactly when the store was unlocked
   * or a login is remembered.
   */
  lemma ReloadInSync(g: Gate)
    requires InSync(g)
    ensures var r := Reload(g);
            r.store.selectedExperience == g.store.selectedExperience
            && r.store.distanceFilter == g.store.distanceFilter
            && r.store.ratingFilter == g.store.ratingFilter
            && (r.store.isAuthenticated <==> g.store.isAuthenticated || RemembersLogin(g.storage))
            && InSync(r)
  {
  }

  /** Wiping browser storage and reloading locks the gate again, from the initial store. */
  lemma WipedStorageLocksOnReload(g: Gate)
    ensures var r := Reload(ClearStorage(g));
            Render(r) == LoginForm && r.store == Initial() && r.saved == None
  {
  }

  /** After a successful login, a reload opens straight onto the children with the filters restored. */
  lemma LoginSurvivesReload(g: Gate, email: string)
    requires AcceptsEmail(email)
    ensures var r := Reload(HandleLogin(g, email));
            Render(r) == Children
            && r.store.distanceFilter == g.store.distanceFilter
            && r.store.ratingFilter == g.store.ratingFilter
            && r.store.internalExperiences == [] && r.store.externalExperiences == []
  {
  }

  /** Even if the persisted record lost the flag, the remembered key unlocks the gate on reload. */
  lemma RememberedKeyUnlocksOnReload(g: Gate)
    requires RemembersLogin(g.storage)
    ensures Render(Reload(g)) == Children
  {
  }
}

=== FILE: distance_format.dfy ===
/** How distances written as `<decimal> km` go through the distance parse. */
module DistanceFormat {
  import opened Options
  import opened Store
  import opened JsParse
  import opened ExplorePage

  /** `split(' ')[0]` of `a + " " + b` is `a` when `a` has no space. */
  lemma {:induction false} TokenBeforeSpace(a: string, b: string)
    requires ' ' !in a
    ensures FirstToken(a + " " + b) == a
    decreases |a|
  {
    if a != [] {
      assert (a + " " + b)[1..] == a[1..] + " " + b;
      TokenBeforeSpace(a[1..], b);
      assert [a[0]] + a[1..] == a;
    } else {
      assert a + " " + b == " " + b;
    }
  }

  /** A distance written `ip.fp km` parses to the decimal `ip.fp`. */
  lemma KmDistance(e: Experience, ip: string, fp: string)
    requires ip != [] && AllDigits(ip) && AllDigits(fp)
    requires e.distance == Some(ip + "." + fp + " km")
    ensures DistanceValue(e) == Some(DecimalValue(ip, fp))
  {
    var token := ip + "." + fp;
    assert forall i :: 0 <= i < |token| ==> token[i] == '.' || IsDigit(token[i]);
    assert ' ' !in token;
    assert e.distance.value == token + " " + "km";
    TokenBeforeSpace(token, "km");
    assert token == ip + "." + fp + "";
    ParseDecimalLiteral(ip, fp, "");
  }

  /** The value of a one-digit-point-one-digit literal. */
  lemma ShortDecimal(ip: string, fp: string)
    requires |ip| == 1 && |fp| == 1 && AllDigits(ip) && AllDigits(fp)
    ensures DecimalValue(ip, fp)
            == DigitValue(ip[0]) as real + DigitValue(fp[0]) as real / 10.0
  {
    assert ip[..0] == [] && fp[..0] == [];
    assert DigitsValue(ip) == DigitValue(ip[0]);
    assert DigitsValue(fp) == DigitValue(fp[0]);
    assert Pow10(|fp|) == 10;
  }

  lemma KmLiteral(i: char, f: char)
    ensures [i] + "." + [f] + " km" == [i, '.', f, ' ', 'k', 'm']
  {
  }

  /** A distance written `i.f km` with single digits `i`, `f` parses to `i + f/10`. */
  lemma KmDistanceValue(e: Experience, i: char, f: char)
    requires IsDigit(i) && IsDigit(f)
    requires e.distance == Some([i, '.', f, ' ', 'k', 'm'])
    ensures DistanceValue(e) == Some(DigitValue(i) as real + DigitValue(f) as real / 10.0)
  {
    KmLiteral(i, f);
    var ip: string := [i];
    var fp: string := [f];
    KmDistance(e, ip, fp);
    ShortDecimal(ip, fp);
    assert ip[0] == i && fp[0] == f;
    var v := DecimalValue(ip, fp);
    assert DistanceValue(e) == Some(v);
    assert v == DigitValue(i) as real + DigitValue(f) as real / 10.0;
  }
}

=== FILE: experience_data.dfy ===
/**
 * The mock data source: a fixed set of four hotel amenities and four nearby
 * restaurants. The artificial latency is not part of the model.
 */
module ExperienceData {
  import opened Options
  import opened Store

  /** What one fetch returns. */
  datatype Fetched = Fetched(internalExperiences: seq<Experience>, externalExperiences: seq<Experience>)

  function Amenity(id: int, title: string, description: string, image: string, position: Vec3, color: string): Experience {
    Experience(id, Some(title), None, Some(description), Some(image), None, None, None,
               Some(position), Some(color), None, None)
  }

  function Restaurant(id: int, name: string, distance: string, rating: real, cuisine: string,
                      coordinates: LatLng, priceRange: string): Experience {
    Experience(id, None, Some(name), None, None, Some(distance), Some(rating), Some(cuisine),
               None, None, Some(coordinates), Some(priceRange))
  }

  const InternalFixture: seq<Experience> := [
    Amenity(1, "Spa & Wellness",
      "Relax at our world-class spa with a variety of treatments including massages, facials, and wellness therapies.",
      "https://images.unsplash.com/photo-1540555700478-4be289fbecef?w=300&h=200&fit=crop",
      Vec3(-2.0, 0.0, 2.0), "#E6F3FF"),
    Amenity(2, "Fitness Center",
      "State-of-the-art fitness center open 24/7 with modern equipment and personal training services.",
      "https://images.unsplash.com/photo-1571019613454-1cb2f99b2d8b?w=300&h=200&fit=crop",
      Vec3(2.0, 0.0, 2.0), "#FFE6E6"),
    Amenity(3, "Rooftop Pool",
      "Stunning rooftop infinity pool with panoramic city views and poolside service.",
      "https://images.unsplash.com/photo-1571896349842-33c89424de2d?w=300&h=200&fit=crop",
      Vec3(0.0, 1.0, -2.0), "#E6FFE6"),
    Amenity(4, "Lobby & Concierge",
      "Elegant lobby with 24/7 concierge services to assist with all your needs.",
      "https://images.unsplash.com/photo-1564501049412-61c2a3083791?w=300&h=200&fit=crop",
      Vec3(0.0, 0.0, 0.0), "#FFF0E6")
  ]

  const CafeDelight: Experience :=
    Restaurant(1, "Café Delight", "0.5 km", 4.5, "French Bistro", LatLng(40.7589, -73.9851), "$$")
  const OceanBistro: Experience :=
    Restaurant(2, "Ocean Bistro", "1.2 km", 4.0, "Seafood", LatLng(40.7614, -73.9776), "$$$")
  const SakuraSushi: Experience :=
    Restaurant(3, "Sakura Sushi", "0.8 km", 4.7, "Japanese", LatLng(40.7505, -73.9934), "$$$$")
  const BellaItalia: Experience :=
    Restaurant(4, "Bella Italia", "0.3 km", 4.2, "Italian", LatLng(40.7580, -73.9855), "$$")

  const ExternalFixture: seq<Experience> := [CafeDelight, OceanBistro, SakuraSushi, BellaItalia]

  /** The data every fetch returns. */
  function FetchExperiences(): (d: Fetched)
    ensures |d.internalExperiences| == 4 && |d.externalExperiences| == 4
    ensures forall i :: 0 <= i < 4 ==> d.internalExperiences[i].id == i + 1
    ensures forall i :: 0 <= i < 4 ==> d.externalExperiences[i].id == i + 1
  {
    Fetched(InternalFixture, ExternalFixture)
  }
}

=== FILE: explore_page.dfy ===
/**
 * The list view: the restaurant filter, the two card-click handlers, the
 * detail panel's dismiss control and classification, the star row, the
 * "clear all filters" control and the load effect.
 */
module ExplorePage {
  import opened Options
  import opened Store
  import opened ExperienceData
  import JsParse
  import JsArray

  // ----- The restaurant filter -----

  /** `exp.distance?.split(' ')[0] || '0'`: the token handed to `parseFloat`. */
  function DistanceToken(e: Experience): (t: string)
    ensures t != []
    ensures e.distance.None? ==> t == "0"
    ensures e.distance.Some? ==>
              var first := JsParse.FirstToken(e.distance.value);
              t == if first == "" then "0" else first
  {
    var first := match e.distance
      case None => None
      case Some(d) => Some(JsParse.FirstToken(d));
    OrElse(first, "0")
  }

  /**
   * The parsed distance; `None` stands for NaN. A missing distance or an empty
   * first token counts as 0, so NaN comes only from a token that does not parse.
   */
  function DistanceValue(e: Experience): (v: Option<real>)
    ensures e.distance.Some? && JsParse.FirstToken(e.distance.value) != ""
            ==> v == JsParse.ParseFloat(JsParse.FirstToken(e.distance.value))
    ensures e.distance.None? || JsParse.FirstToken(e.distance.value) == "" ==> v == Some(0.0)
  {
    JsParse.ParseIntegerLiteral("0", "");
    assert "0" + "" == "0";
    JsParse.ParseFloat(DistanceToken(e))
  }

  /** `exp.rating || 0`: a missing rating counts as 0. */
  function RatingValue(e: Experience): (v: real)
    ensures e.rating.None? ==> v == 0.0
    ensures e.rating.Some? ==> v == e.rating.value
  {
    e.rating.GetOr(0.0)
  }

  /** The distance half of the predicate. NaN fails every numeric comparison. */
  predicate DistanceMatch(distanceFilter: string, d: Option<real>): (b: bool)
    ensures b ==> distanceFilter in {"all", "near", "medium", "far"}
    ensures d.None? ==> (b <==> distanceFilter == "all")
    ensures distanceFilter == "all" ==> b
  {
    || distanceFilter == "all"
    || (distanceFilter == "near" && d.Some? && d.value <= 0.5)
    || (distanceFilter == "medium" && d.Some? && d.value > 0.5 && d.value <= 1.0)
    || (distanceFilter == "far" && d.Some? && d.value > 1.0)
  }

  /** Whether a restaurant is listed under the given filters. */
  predicate Keep(e: Experience, distanceFilter: string, ratingFilter: real): (b: bool)
    ensures b ==> DistanceMatch(distanceFilter, DistanceValue(e))
    ensures b ==> RatingValue(e) >= ratingFilter
    ensures e.rating.None? ==> (b <==> DistanceMatch(distanceFilter, DistanceValue(e)) && ratingFilter <= 0.0)
  {
    DistanceMatch(distanceFilter, DistanceValue(e)) && RatingValue(e) >= ratingFilter
  }

  /** `Keep` with the filters fixed, as the callback handed to `filter`. */
  function Keeper(distanceFilter: string, ratingFilter: real): Experience -> bool {
    e => Keep(e, distanceFilter, ratingFilter)
  }

  /** The restaurants listed under the given filters, in their original order. */
  function FilterExternal(xs: seq<Experience>, distanceFilter: string, ratingFilter: real): (r: seq<Experience>)
    ensures JsArray.IsSubsequence(r, xs) && |r| <= |xs|
    ensures forall e :: e in r <==> e in xs && Keep(e, distanceFilter, ratingFilter)
    ensures forall e {:trigger multiset(r)[e]} :: multiset(r)[e] == if Keep(e, distanceFilter, ratingFilter) then multiset(xs)[e] else 0
  {
    JsArray.Filter(xs, Keeper(distanceFilter, ratingFilter))
  }

  /** The list shown for the store's current filters. */
  function Visible(s: StoreState): (v: seq<Experience>)
    ensures JsArray.IsSubsequence(v, s.externalExperiences)
    ensures forall e :: e in v <==> e in s.externalExperiences && Keep(e, s.distanceFilter, s.ratingFilter)
    ensures forall e {:trigger multiset(v)[e]} ::
              multiset(v)[e] == if Keep(e, s.distanceFilter, s.ratingFilter) then multiset(s.externalExperiences)[e] else 0
  {
    FilterExternal(s.externalExperiences, s.distanceFilter, s.ratingFilter)
  }

  /** Nothing is dropped exactly when every entry passes the predicate. */
  lemma FilterIsIdentityIff(xs: seq<Experience>, distanceFilter: string, ratingFilter: real)
    ensures FilterExternal(xs, distanceFilter, ratingFilter) == xs
            <==> forall i :: 0 <= i < |xs| ==> Keep(xs[i], distanceFilter, ratingFilter)
  {
    JsArray.FilterIdentityIff(xs, Keeper(distanceFilter, ratingFilter));
  }

  /** With filters `("all", 0)` the list is the whole collection, provided no rating is negative. */
  lemma DefaultFiltersShowAll(xs: seq<Experience>)
    requires forall i :: 0 <= i < |xs| ==> RatingValue(xs[i]) >= 0.0
    ensures FilterExternal(xs, "all", 0.0) == xs
  {
    FilterIsIdentityIff(xs, "all", 0.0);
  }

  /** A parsed distance lies in exactly one of near, medium and far; NaN lies in none. */
  lemma BucketsPartition(d: Option<real>)
    ensures (if DistanceMatch("near", d) then 1 else 0)
          + (if DistanceMatch("medium", d) then 1 else 0)
          + (if DistanceMatch("far", d) then 1 else 0)
         == (if d.Some? then 1 else 0)
  {
  }

  /** No restaurant is listed under two different buckets. */
  lemma BucketResultsDisjoint(xs: seq<Experience>, r1: real, r2: real, e: Experience)
    ensures !(e in FilterExternal(xs, "near", r1) && e in FilterExternal(xs, "medium", r2))
    ensures !(e in FilterExternal(xs, "near", r1) && e in FilterExternal(xs, "far", r2))
    ensures !(e in FilterExternal(xs, "medium", r1) && e in FilterExternal(xs, "far", r2))
  {
    BucketsPartition(DistanceValue(e));
  }

  /** When every distance parses, the near, medium and far lists together are as long as the "all" list. */
  lemma BucketCounts(xs: seq<Experience>, ratingFilter: real)
    requires forall i :: 0 <= i < |xs| ==> DistanceValue(xs[i]).Some?
    ensures |FilterExternal(xs, "near", ratingFilter)| + |FilterExternal(xs, "medium", ratingFilter)|
            + |FilterExternal(xs, "far", ratingFilter)| == |FilterExternal(xs, "all", ratingFilter)|
  {
    var near, medium, far, all :=
      Keeper("near", ratingFilter), Keeper("medium", ratingFilter), Keeper("far", ratingFilter), Keeper("all", ratingFilter);
    forall i | 0 <= i < |xs|
      ensures (if near(xs[i]) then 1 else 0) + (if medium(xs[i]) then 1 else 0) + (if far(xs[i]) then 1 else 0)
              == (if all(xs[i]) then 1 else 0)
    {
      BucketsPartition(DistanceValue(xs[i]));
    }
    JsArray.FilterSplitsInThree(xs, near, medium, far, all);
  }

  /** An entry whose distance token does not parse is listed only under "all". */
  lemma NaNMatchesOnlyAll(e: Experience, distanceFilter: string, ratingFilter: real)
    requires DistanceValue(e).None?
    ensures Keep(e, distanceFilter, ratingFilter) <==> distanceFilter == "all" && RatingValue(e) >= ratingFilter
  {
  }

  /** A missing distance, or one whose first token is empty, counts as 0 and so as near. */
  lemma MissingDistanceIsNear(e: Experience)
    requires e.distance.None? || JsParse.FirstToken(e.distance.value) == ""
    ensures DistanceValue(e) == Some(0.0)
    ensures DistanceMatch("near", DistanceValue(e))
  {
    JsParse.ParseIntegerLiteral("0", "");
    assert "0" + "" == "0";
  }

  /** A distance filter outside the four known values lists nothing. */
  lemma UnknownFilterListsNothing(xs: seq<Experience>, distanceFilter: string, ratingFilter: real)
    requires distanceFilter !in {"all", "near", "medium", "far"}
    ensures FilterExternal(xs, distanceFilter, ratingFilter) == []
  {
    JsArray.FilterEmptyIff(xs, Keeper(distanceFilter, ratingFilter));
  }

  /** Raising the minimum rating only ever removes entries, and keeps the order. */
  lemma RatingFilterAntitone(xs: seq<Experience>, distanceFilter: string, low: real, high: real)
    requires low <= high
    ensures JsArray.IsSubsequence(FilterExternal(xs, distanceFilter, high), FilterExternal(xs, distanceFilter, low))
  {
    JsArray.FilterMonotone(xs, Keeper(distanceFilter, high), Keeper(distanceFilter, low));
  }

  // ----- Selection from the lists -----

  /** The three selection fields. */
  const SelectionFields: set<Field> := {SelectedExperience, SelectedInternalRoom, SelectedExternalRoom}

  /** Clicking an amenity card. */
  function InternalCardClick(s: StoreState, experience: Experience): (r: StoreState)
    ensures r.selectedExperience == Some(experience)
    ensures r.selectedInternalRoom == Some(experience.id) && r.selectedExternalRoom == None
    ensures MarkersExclusive(r)
    ensures Changed(s, r) <= SelectionFields
  {
    var s1 := SetSelectedExperience(s, Some(experience));
    var s2 := SetSelectedInternalRoom(s1, Some(experience.id));
    SetSelectedExternalRoom(s2, None)
  }

  /** Clicking a restaurant card: the mirror image of an amenity click. */
  function ExternalCardClick(s: StoreState, experience: Experience): (r: StoreState)
    ensures r.selectedExperience == Some(experience)
    ensures r.selectedExternalRoom == Some(experience.id) && r.selectedInternalRoom == None
    ensures MarkersExclusive(r)
    ensures Changed(s, r) <= SelectionFields
  {
    var s1 := SetSelectedExperience(s, Some(experience));
    var s2 := SetSelectedExternalRoom(s1, Some(experience.id));
    SetSelectedInternalRoom(s2, None)
  }

  /** The detail panel's close button: clears the detail, keeps both markers. */
  function Dismiss(s: StoreState): (r: StoreState)
    ensures r.selectedExperience == None
    ensures r.selectedInternalRoom == s.selectedInternalRoom
    ensures r.selectedExternalRoom == s.selectedExternalRoom
    ensures Changed(s, r) <= {SelectedExperience}
    ensures MarkersExclusive(s) ==> MarkersExclusive(r)
  {
    SetSelectedExperience(s, None)
  }

  /** The "Clear all filters" button of the empty list. */
  function ClearFilters(s: StoreState): (r: StoreState)
    ensures r.distanceFilter == "all" && r.ratingFilter == 0.0
    ensures Changed(s, r) <= {DistanceFilter, RatingFilter}
  {
    SetRatingFilter(SetDistanceFilter(s, "all"), 0.0)
  }

  /** After clearing the filters the whole collection is listed again, if no rating is negative. */
  lemma ClearFiltersShowsAll(s: StoreState)
    requires forall i :: 0 <= i < |s.externalExperiences| ==> RatingValue(s.externalExperiences[i]) >= 0.0
    ensures Visible(ClearFilters(s)) == s.externalExperiences
  {
    DefaultFiltersShowAll(s.externalExperiences);
  }

  /** Whether the "No restaurants found" panel with its clear button is shown. */
  predicate ShowsEmptyState(s: StoreState): (b: bool)
    ensures b <==> forall e :: e in s.externalExperiences ==> !Keep(e, s.distanceFilter, s.ratingFilter)
  {
    assert |Visible(s)| != 0 ==> Visible(s)[0] in Visible(s);
    |Visible(s)| == 0
  }

  // ----- Loading -----

  /**
   * The load effect as one atomic step: raise the loading flag, store the
   * fetched collections when the fetch succeeded (`None` is a rejected fetch,
   * which is only logged), and lower the flag in every case.
   */
  function LoadExperiences(s: StoreState, fetched: Option<Fetched>): (r: StoreState)
    ensures !r.isLoading
    ensures fetched.Some? ==> (r.internalExperiences == fetched.value.internalExperiences
                               && r.externalExperiences == fetched.value.externalExperiences)
    ensures fetched.None? ==> Changed(s, r) <= {IsLoading}
    ensures Changed(s, r) <= {InternalExperiences, ExternalExperiences, IsLoading}
  {
    var loading := SetLoading(s, true);
    var loaded := match fetched
      case Some(d) => SetExperiences(loading, d.internalExperiences, d.externalExperiences)
      case None => loading;
    SetLoading(loaded, false)
  }

  /**
   * Loading touches neither the selection nor the filters, so nothing that is
   * persisted changes; after a successful fetch the list shows the fetched
   * restaurants under the filters already in place.
   */
  lemma LoadKeepsSelectionAndFilters(s: StoreState, fetched: Option<Fetched>)
    ensures var r := LoadExperiences(s, fetched);
            Partialize(r) == Partialize(s)
            && r.selectedInternalRoom == s.selectedInternalRoom && r.selectedExternalRoom == s.selectedExternalRoom
    ensures fetched.Some? ==>
              Visible(LoadExperiences(s, fetched))
              == FilterExternal(fetched.value.externalExperiences, s.distanceFilter, s.ratingFilter)
  {
    var r := LoadExperiences(s, fetched);
    assert Changed(s, r) <= {InternalExperiences, ExternalExperiences, IsLoading};
    assert SelectedExperience !in Changed(s, r) && IsAuthenticated !in Changed(s, r);
    assert DistanceFilter !in Changed(s, r) && RatingFilter !in Changed(s, r);
    assert SelectedInternalRoom !in Changed(s, r) && SelectedExternalRoom !in Changed(s, r);
  }

  // ----- The detail panel -----

  /** The detail panel shows an amenity exactly when the record has a non-empty title. */
  predicate IsHotelAmenity(e: Experience) {
    Truthy(e.title)
  }

  /** The badge under the detail heading. */
  function Badge(e: Experience): (badge: string)
    ensures badge == "Hotel Amenity" <==> IsHotelAmenity(e)
    ensures badge == "External Restaurant" <==> !IsHotelAmenity(e)
  {
    if IsHotelAmenity(e) then "Hotel Amenity" else "External Restaurant"
  }

  /** The detail heading, `title || name`; an absent name renders as nothing. */
  function Heading(e: Experience): (h: string)
    ensures IsHotelAmenity(e) ==> h == e.title.value
    ensures !IsHotelAmenity(e) && Truthy(e.name) ==> h == e.name.value
    ensures h == "" <==> !Truthy(e.title) && !Truthy(e.name)
  {
    OrElse(e.title, OrElse(e.name, ""))
  }

  /** Whether star `i` (0 to 4) is drawn lit: `i < floor(rating || 0)`. */
  predicate StarLit(i: int, rating: Option<real>) {
    i < rating.GetOr(0.0).Floor
  }

  /** `f` confined to the range 0 to `hi`. */
  function Clamp(f: int, hi: nat): (c: nat)
    ensures c <= hi
  {
    if f <= 0 then 0 else if f >= hi then hi else f
  }

  /** The number of lit stars among the five drawn: the lit ones are exactly the first `lit`. */
  method LitStars(rating: Option<real>) returns (lit: nat)
    ensures lit == Clamp(rating.GetOr(0.0).Floor, 5)
    ensures forall i :: 0 <= i < 5 ==> (StarLit(i, rating) <==> i < lit)
  {
    var f := rating.GetOr(0.0).Floor;
    lit := 0;
    var i := 0;
    while i < 5
      invariant 0 <= i <= 5
      invariant lit == Clamp(f, i)
    {
      if StarLit(i, rating) {
        lit := lit + 1;
      }
      i := i + 1;
    }
  }
}

=== FILE: fixture_facts.dfy ===
/**
 * Facts about the mock data under the model's operations: id spaces,
 * ratings, parsed distances, what each filter setting lists, and the
 * classification of every record.
 */
module FixtureFacts {
  import opened Options
  import opened Store
  import opened ExperienceData
  import opened ExplorePage
  import opened HotelMap3D
  import JsArray
  import opened DistanceFormat

  /** The ids of a list, in order. */
  function Ids(xs: seq<Experience>): (ids: seq<int>)
    ensures |ids| == |xs|
    ensures forall i :: 0 <= i < |xs| ==> ids[i] == xs[i].id
  {
    if xs == [] then [] else [xs[0].id] + Ids(xs[1..])
  }

  /** Four records with ids 1 to 4, in order, have distinct ids. */
  lemma {:induction false} OneToFourUnique(xs: seq<Experience>)
    requires |xs| == 4 && forall i :: 0 <= i < 4 ==> xs[i].id == i + 1
    ensures UniqueIds(xs) && Ids(xs) == [1, 2, 3, 4]
  {
    var ids := Ids(xs);
    assert ids == [ids[0], ids[1], ids[2], ids[3]];
  }

  /** Ids are distinct among the amenities. */
  lemma InternalIdsUnique()
    ensures UniqueIds(InternalFixture) && Ids(InternalFixture) == [1, 2, 3, 4]
  {
    OneToFourUnique(FetchExperiences().internalExperiences);
  }

  /** Ids are distinct among the restaurants. */
  lemma ExternalIdsUnique()
    ensures UniqueIds(ExternalFixture) && Ids(ExternalFixture) == [1, 2, 3, 4]
  {
    OneToFourUnique(FetchExperiences().externalExperiences);
  }

  /** The two id spaces overlap: amenity 1 and restaurant 1 share an id. */
  lemma IdSpacesOverlap()
    ensures InternalFixture[0].id == ExternalFixture[0].id
    ensures InternalFixture[0] != ExternalFixture[0]
  {
    InternalIdsUnique();
    ExternalIdsUnique();
  }

  /** Every restaurant is rated, within 0 to 5. */
  lemma RatingsInRange()
    ensures forall i :: 0 <= i < |ExternalFixture| ==>
              ExternalFixture[i].rating.Some? && 0.0 <= RatingValue(ExternalFixture[i]) <= 5.0
  {
  }

  /** The four distances parse to 0.5, 1.2, 0.8 and 0.3. */
  lemma DistancesParse()
    ensures DistanceValue(CafeDelight) == Some(0.5)
    ensures DistanceValue(OceanBistro) == Some(1.2)
    ensures DistanceValue(SakuraSushi) == Some(0.8)
    ensures DistanceValue(BellaItalia) == Some(0.3)
  {
    CafeDelightDistance();
    OceanBistroDistance();
    SakuraSushiDistance();
    BellaItaliaDistance();
  }

  lemma CafeDelightDistance()
    ensures DistanceValue(CafeDelight) == Some(0.5)
  {
    KmDistanceValue(CafeDelight, '0', '5');
  }

  lemma OceanBistroDistance()
    ensures DistanceValue(OceanBistro) == Some(1.2)
  {
    KmDistanceValue(OceanBistro, '1', '2');
  }

  lemma SakuraSushiDistance()
    ensures DistanceValue(SakuraSushi) == Some(0.8)
  {
    KmDistanceValue(SakuraSushi, '0', '8');
  }

  lemma BellaItaliaDistance()
    ensures DistanceValue(BellaItalia) == Some(0.3)
  {
    KmDistanceValue(BellaItalia, '0', '3');
  }

  /** Whether each restaurant is listed depends on its parsed distance and its rating alone. */
  lemma CafeDelightKept(distanceFilter: string, ratingFilter: real)
    ensures Keep(CafeDelight, distanceFilter, ratingFilter)
            == (DistanceMatch(distanceFilter, Some(0.5)) && 4.5 >= ratingFilter)
  {
    CafeDelightDistance();
  }

  lemma OceanBistroKept(distanceFilter: string, ratingFilter: real)
    ensures Keep(OceanBistro, distanceFilter, ratingFilter)
            == (DistanceMatch(distanceFilter, Some(1.2)) && 4.0 >= ratingFilter)
  {
    OceanBistroDistance();
  }

  lemma SakuraSushiKept(distanceFilter: string, ratingFilter: real)
    ensures Keep(SakuraSushi, distanceFilter, ratingFilter)
            == (DistanceMatch(distanceFilter, Some(0.8)) && 4.7 >= ratingFilter)
  {
    SakuraSushiDistance();
  }

  lemma BellaItaliaKept(distanceFilter: string, ratingFilter: real)
    ensures Keep(BellaItalia, distanceFilter, ratingFilter)
            == (DistanceMatch(distanceFilter, Some(0.3)) && 4.2 >= ratingFilter)
  {
    BellaItaliaDistance();
  }

  /** The part of the filter's output contributed by one entry. */
  function Pick(x: Experience, distanceFilter: string, ratingFilter: real): seq<Experience> {
    if Keep(x, distanceFilter, ratingFilter) then [x] else []
  }

  lemma FourInOrder(a: Experience, b: Experience, c: Experience, d: Experience)
    ensures [a] + ([b] + ([c] + [d])) == [a, b, c, d]
  {
  }

  /** The filter over a four-entry list, spelled out entry by entry. */
  lemma FilterOfFour(a: Experience, b: Experience, c: Experience, d: Experience,
                     distanceFilter: string, ratingFilter: real)
    ensures FilterExternal([a, b, c, d], distanceFilter, ratingFilter)
         == Pick(a, distanceFilter, ratingFilter)
          + (Pick(b, distanceFilter, ratingFilter)
          + (Pick(c, distanceFilter, ratingFilter)
          + Pick(d, distanceFilter, ratingFilter)))
  {
    var keep := Keeper(distanceFilter, ratingFilter);
    var l4: seq<Experience> := [d];
    var l3 := [c] + l4;
    var l2 := [b] + l3;
    var l1 := [a] + l2;
    assert l1 == [a, b, c, d];
    JsArray.FilterCons(d, [], keep);
    assert [d] + [] == l4;
    JsArray.FilterCons(c, l4, keep);
    JsArray.FilterCons(b, l3, keep);
    JsArray.FilterCons(a, l2, keep);
  }

  /** The fixture filtered under any settings, restaurant by restaurant. */
  lemma FixtureListing(s: StoreState)
    requires s.externalExperiences == ExternalFixture
    ensures var df := s.distanceFilter;
            var rf := s.ratingFilter;
            (Visible(s)
             == (if DistanceMatch(df, Some(0.5)) && rf <= 4.5 then [CafeDelight] else [])
              + ((if DistanceMatch(df, Some(1.2)) && rf <= 4.0 then [OceanBistro] else [])
              + ((if DistanceMatch(df, Some(0.8)) && rf <= 4.7 then [SakuraSushi] else [])
              + (if DistanceMatch(df, Some(0.3)) && rf <= 4.2 then [BellaItalia] else []))))
  {
    var df := s.distanceFilter;
    var rf := s.ratingFilter;
    FilterOfFour(CafeDelight, OceanBistro, SakuraSushi, BellaItalia, df, rf);
    CafeDelightKept(df, rf);
    OceanBistroKept(df, rf);
    SakuraSushiKept(df, rf);
    BellaItaliaKept(df, rf);
  }

  /** "near" lists restaurants 1 and 4, each while the rating threshold admits it. */
  lemma NearOnFixture(s: StoreState)
    requires s.externalExperiences == ExternalFixture && s.distanceFilter == "near"
    ensures Visible(s) == (if s.ratingFilter <= 4.5 then [CafeDelight] else [])
                        + (if s.ratingFilter <= 4.2 then [BellaItalia] else [])
    ensures s.ratingFilter <= 4.2 ==> Ids(Visible(s)) == [1, 4]
  {
    FixtureListing(s);
    var cafe: seq<Experience> := if s.ratingFilter <= 4.5 then [CafeDelight] else [];
    var bella: seq<Experience> := if s.ratingFilter <= 4.2 then [BellaItalia] else [];
    assert !DistanceMatch("near", Some(1.2)) && !DistanceMatch("near", Some(0.8));
    assert Visible(s) == cafe + ([] + ([] + bella));
    assert [] + ([] + bella) == bella;
    if s.ratingFilter <= 4.2 {
      assert Visible(s) == [CafeDelight] + [BellaItalia];
      IdsOfTwo(CafeDelight, BellaItalia);
    }
  }

  lemma IdsOfTwo(a: Experience, b: Experience)
    ensures [a] + [b] == [a, b] && Ids([a, b]) == [a.id, b.id]
  {
    assert [a, b][1..] == [b];
  }

  /** "medium" lists restaurant 3 while the rating threshold admits it. */
  lemma MediumOnFixture(s: StoreState)
    requires s.externalExperiences == ExternalFixture && s.distanceFilter == "medium"
    ensures Visible(s) == if s.ratingFilter <= 4.7 then [SakuraSushi] else []
    ensures s.ratingFilter <= 4.7 ==> Ids(Visible(s)) == [3]
  {
    FixtureListing(s);
  }

  /** "far" lists restaurant 2 while the rating threshold admits it. */
  lemma FarOnFixture(s: StoreState)
    requires s.externalExperiences == ExternalFixture && s.distanceFilter == "far"
    ensures Visible(s) == if s.ratingFilter <= 4.0 then [OceanBistro] else []
    ensures s.ratingFilter <= 4.0 ==> Ids(Visible(s)) == [2]
  {
    FixtureListing(s);
  }

  /** Under "all", a 4.5 threshold lists restaurants 1 and 3. */
  lemma HighThresholdOnFixture(s: StoreState)
    requires s.externalExperiences == ExternalFixture && s.distanceFilter == "all" && s.ratingFilter == 4.5
    ensures Visible(s) == [CafeDelight, SakuraSushi]
    ensures Ids(Visible(s)) == [1, 3]
  {
    FixtureListing(s);
    assert Visible(s) == [CafeDelight] + ([] + ([SakuraSushi] + []));
    assert [] + ([SakuraSushi] + []) == [SakuraSushi];
    IdsOfTwo(CafeDelight, SakuraSushi);
  }

  /** Under "all", any threshold up to 4 lists all four. */
  lemma LowThresholdOnFixture(s: StoreState)
    requires s.externalExperiences == ExternalFixture && s.distanceFilter == "all" && s.ratingFilter <= 4.0
    ensures Visible(s) == ExternalFixture
  {
    FixtureListing(s);
    FourInOrder(CafeDelight, OceanBistro, SakuraSushi, BellaItalia);
  }

  /** Amenities are classified as such and restaurants are not; each card's label is its title or name. */
  lemma ClassificationOnFixture(place: int -> Vec3)
    ensures forall i :: 0 <= i < |InternalFixture| ==>
              IsHotelAmenity(InternalFixture[i]) && Badge(InternalFixture[i]) == "Hotel Amenity"
    ensures forall i :: 0 <= i < |ExternalFixture| ==>
              !IsHotelAmenity(ExternalFixture[i]) && Badge(ExternalFixture[i]) == "External Restaurant"
    ensures forall i :: 0 <= i < |InternalFixture| ==>
              DisplayTitle(InternalRoom(InternalFixture[i])) == InternalFixture[i].title.value
    ensures forall i :: 0 <= i < |ExternalFixture| ==>
              DisplayTitle(ExternalRoom(ExternalFixture[i], place(i))) == ExternalFixture[i].name.value
  {
  }

  /** Every amenity has a position and colour of its own, so no room falls back to the defaults. */
  lemma NoRoomUsesDefaults()
    ensures forall i :: 0 <= i < |InternalFixture| ==>
              RoomPosition(InternalFixture[i]) == InternalFixture[i].position.value
              && RoomColor(InternalFixture[i]) == InternalFixture[i].color.value
              && RoomColor(InternalFixture[i]) != DefaultRoomColor
  {
  }

  /** In a state holding the fixture, clicking amenity 2 then restaurant 3 leaves only the restaurant selected. */
  lemma SelectAmenityThenRestaurant(s: StoreState)
    requires s.internalExperiences == InternalFixture && s.externalExperiences == ExternalFixture
    ensures var r := RoomClick(RoomClick(s, Internal, 2), External, 3);
            r.selectedInternalRoom == None && r.selectedExternalRoom == Some(3)
            && r.selectedExperience == Some(SakuraSushi)
  {
    var r1 := RoomClick(s, Internal, 2);
    assert r1.externalExperiences == ExternalFixture;
    ExternalIdsUnique();
    assert ExternalFixture[2] == SakuraSushi;
    FindMember(ExternalFixture, SakuraSushi);
  }

  /** In a state holding the fixture, "far" with a 4.5 threshold shows the empty state, and "Clear all filters" lists every restaurant again. */
  lemma ClearAfterEmptyList(s: StoreState)
    requires s.externalExperiences == ExternalFixture
    ensures var narrowed := SetRatingFilter(SetDistanceFilter(s, "far"), 4.5);
            ShowsEmptyState(narrowed) && Visible(ClearFilters(narrowed)) == ExternalFixture
  {
    var narrowed := SetRatingFilter(SetDistanceFilter(s, "far"), 4.5);
    FarOnFixture(narrowed);
    LowThresholdOnFixture(ClearFilters(narrowed));
  }
}

=== FILE: hotel_map.dfy ===
/**
 * The scene view's state logic: which room is highlighted, what a click on a
 * room does to the store, the room's label and scale, and the defaults used
 * when an amenity record lacks a position or colour.
 */
module HotelMap3D {
  import opened Options
  import opened Store
  import ExplorePage

  /** The two categories of rooms. */
  datatype Kind = Internal | External

  /** The props a room is rendered with. */
  datatype RoomProps = RoomProps(position: Vec3, color: string, id: int, title: string, kind: Kind,
                                 name: Option<string>)

  const DefaultRoomColor: string := "#E5E7EB"
  const RestaurantColor: string := "#FED7AA"

  /** `experience.position?.x || 0` and its `y`, `z` siblings. */
  function RoomPosition(e: Experience): (p: Vec3)
    ensures e.position.None? ==> p == Vec3(0.0, 0.0, 0.0)
    ensures e.position.Some? ==> p == e.position.value
  {
    match e.position
    case None => Vec3(0.0, 0.0, 0.0)
    case Some(v) => Vec3(v.x, v.y, v.z)
  }

  /** `experience.color || '#E5E7EB'`. */
  function RoomColor(e: Experience): (c: string)
    ensures c != ""
    ensures Truthy(e.color) ==> c == e.color.value
    ensures c == DefaultRoomColor <==> !Truthy(e.color) || e.color.value == DefaultRoomColor
  {
    OrElse(e.color, DefaultRoomColor)
  }

  /** The props of an amenity's room. */
  function InternalRoom(e: Experience): (p: RoomProps)
    ensures p.kind == Internal && p.id == e.id && p.name == None
    ensures p.title == if Truthy(e.title) then e.title.value else ""
    ensures p.position == RoomPosition(e) && p.color == RoomColor(e)
  {
    RoomProps(RoomPosition(e), RoomColor(e), e.id, OrElse(e.title, ""), Internal, None)
  }

  /** The props of a restaurant's room; its position comes from the angular layout. */
  function ExternalRoom(e: Experience, position: Vec3): (p: RoomProps)
    ensures p.kind == External && p.id == e.id && p.title == "" && p.name == e.name
    ensures p.position == position && p.color == RestaurantColor
  {
    RoomProps(position, RestaurantColor, e.id, "", External, e.name)
  }

  /** All rooms of the scene, amenities first; `place(i)` is restaurant `i`'s position. */
  function SceneRooms(s: StoreState, place: int -> Vec3): (rooms: seq<RoomProps>)
    ensures |rooms| == |s.internalExperiences| + |s.externalExperiences|
    ensures forall i :: 0 <= i < |s.internalExperiences| ==> rooms[i] == InternalRoom(s.internalExperiences[i])
    ensures forall i :: 0 <= i < |s.externalExperiences| ==>
              rooms[|s.internalExperiences| + i] == ExternalRoom(s.externalExperiences[i], place(i))
  {
    seq(|s.internalExperiences|, i requires 0 <= i < |s.internalExperiences| => InternalRoom(s.internalExperiences[i]))
    + seq(|s.externalExperiences|,
          i requires 0 <= i < |s.externalExperiences| => ExternalRoom(s.externalExperiences[i], place(i)))
  }

  /**
   * A room is highlighted when the marker of its own category holds its id;
   * while the markers are exclusive, the other category's marker is then clear.
   */
  predicate IsSelected(s: StoreState, kind: Kind, id: int): (b: bool)
    ensures b <==> (if kind == Internal then s.selectedInternalRoom else s.selectedExternalRoom) == Some(id)
    ensures b && MarkersExclusive(s) ==>
              (if kind == Internal then s.selectedExternalRoom else s.selectedInternalRoom) == None
  {
    if kind == Internal then s.selectedInternalRoom == Some(id) else s.selectedExternalRoom == Some(id)
  }

  /** Index of the first record with the given id, or `|xs|` when there is none. */
  function FirstWithId(xs: seq<Experience>, id: int): (k: nat)
    ensures k <= |xs|
    ensures forall j :: 0 <= j < k ==> xs[j].id != id
    ensures k < |xs| ==> xs[k].id == id
  {
    if xs == [] then 0
    else if xs[0].id == id then 0
    else 1 + FirstWithId(xs[1..], id)
  }

  /** `xs.find(exp => exp.id === id)`: the first record with the id. */
  function Find(xs: seq<Experience>, id: int): (r: Option<Experience>)
    ensures r.None? <==> forall i :: 0 <= i < |xs| ==> xs[i].id != id
    ensures r.Some? ==> r.value.id == id && r.value in xs
    ensures r.Some? ==> exists k :: 0 <= k < |xs| && r.value == xs[k] && forall j :: 0 <= j < k ==> xs[j].id != id
  {
    var k := FirstWithId(xs, id);
    if k < |xs| then Some(xs[k]) else None
  }

  /** Ids are pairwise distinct. */
  predicate UniqueIds(xs: seq<Experience>) {
    forall i, j :: 0 <= i < |xs| && 0 <= j < |xs| && xs[i].id == xs[j].id ==> i == j
  }

  /** With distinct ids, looking up a member's id finds that member. */
  lemma FindMember(xs: seq<Experience>, e: Experience)
    requires UniqueIds(xs) && e in xs
    ensures Find(xs, e.id) == Some(e)
  {
    var i :| 0 <= i < |xs| && xs[i] == e;
    var k := FirstWithId(xs, e.id);
    assert xs[k].id == xs[i].id;
  }

  /**
   * A click on a room: set this category's marker, clear the other one, and
   * show the first record of this category with the id, if there is one.
   */
  function RoomClick(s: StoreState, kind: Kind, id: int): (r: StoreState)
    ensures kind == Internal ==> r.selectedInternalRoom == Some(id) && r.selectedExternalRoom == None
    ensures kind == External ==> r.selectedExternalRoom == Some(id) && r.selectedInternalRoom == None
    ensures MarkersExclusive(r)
    ensures var found := Find(if kind == Internal then s.internalExperiences else s.externalExperiences, id);
            r.selectedExperience == if found.Some? then found else s.selectedExperience
    ensures Changed(s, r) <= ExplorePage.SelectionFields
  {
    if kind == Internal then
      var s1 := SetSelectedInternalRoom(s, Some(id));
      var s2 := SetSelectedExternalRoom(s1, None);
      match Find(s2.internalExperiences, id)
      case Some(experience) => SetSelectedExperience(s2, Some(experience))
      case None => s2
    else
      var s1 := SetSelectedExternalRoom(s, Some(id));
      var s2 := SetSelectedInternalRoom(s1, None);
      match Find(s2.externalExperiences, id)
      case Some(experience) => SetSelectedExperience(s2, Some(experience))
      case None => s2
  }

  function Other(kind: Kind): Kind {
    if kind == Internal then External else Internal
  }

  /** After a click, the clicked room is highlighted and no room of the other category is. */
  lemma ClickHighlightsOnlyOneCategory(s: StoreState, kind: Kind, id: int, other: int)
    ensures IsSelected(RoomClick(s, kind, id), kind, id)
    ensures !IsSelected(RoomClick(s, kind, id), Other(kind), other)
    ensures IsSelected(RoomClick(s, kind, id), kind, other) <==> other == id
  {
  }

  /** In the rendered scene after a click, the highlighted rooms are exactly the rooms with the clicked category and id. */
  lemma ClickedSceneHighlights(s: StoreState, kind: Kind, id: int, place: int -> Vec3)
    ensures var r := RoomClick(s, kind, id);
            var rooms := SceneRooms(r, place);
            forall i :: 0 <= i < |rooms| ==> (IsSelected(r, rooms[i].kind, rooms[i].id) <==> rooms[i].kind == kind && rooms[i].id == id)
  {
    var r := RoomClick(s, kind, id);
    var rooms := SceneRooms(r, place);
    forall i | 0 <= i < |rooms|
      ensures IsSelected(r, rooms[i].kind, rooms[i].id) <==> rooms[i].kind == kind && rooms[i].id == id
    {
      var room := rooms[i];
      ClickHighlightsOnlyOneCategory(s, kind, id, room.id);
      if room.kind != kind {
        assert room.kind == Other(kind);
      }
    }
  }

  /** With distinct ids, clicking a room gives the same state as clicking that record's card. */
  lemma {:induction false} RoomClickMatchesCardClick(s: StoreState, e: Experience)
    ensures UniqueIds(s.internalExperiences) && e in s.internalExperiences ==>
              RoomClick(s, Internal, e.id) == ExplorePage.InternalCardClick(s, e)
    ensures UniqueIds(s.externalExperiences) && e in s.externalExperiences ==>
              RoomClick(s, External, e.id) == ExplorePage.ExternalCardClick(s, e)
  {
    if UniqueIds(s.internalExperiences) && e in s.internalExperiences {
      FindMember(s.internalExperiences, e);
    }
    if UniqueIds(s.externalExperiences) && e in s.externalExperiences {
      FindMember(s.externalExperiences, e);
    }
  }

  /** `title || name || ''`. */
  function DisplayTitle(p: RoomProps): (t: string)
    ensures p.title != "" ==> t == p.title
    ensures p.title == "" && Truthy(p.name) ==> t == p.name.value
    ensures t == "" <==> p.title == "" && !Truthy(p.name)
  {
    if p.title != "" then p.title else OrElse(p.name, "")
  }

  /** A room's label agrees with the detail panel's heading for a record of its category. */
  lemma RoomLabelMatchesHeading(e: Experience, position: Vec3)
    ensures Truthy(e.title) || !Truthy(e.name) ==> DisplayTitle(InternalRoom(e)) == ExplorePage.Heading(e)
    ensures !Truthy(e.title) ==> DisplayTitle(ExternalRoom(e, position)) == ExplorePage.Heading(e)
  {
  }

  /** The scale of a room mesh: hover wins over selection. */
  function Scale(hovered: bool, selected: bool): (k: real)
    ensures k >= 1.0
    ensures k == 1.0 <==> !hovered && !selected
    ensures k == 1.2 <==> hovered
    ensures !hovered && selected ==> k == 1.1
    ensures !hovered ==> (k > 1.0 <==> selected)
  {
    if hovered then 1.2 else if selected then 1.1 else 1.0
  }

  /**
   * In the scene after a click, an un-hovered room is drawn enlarged (at 1.1)
   * exactly when it is the clicked room, and every other un-hovered room at 1.
   */
  lemma ClickedSceneScales(s: StoreState, kind: Kind, id: int, place: int -> Vec3)
    ensures var r := RoomClick(s, kind, id);
            var rooms := SceneRooms(r, place);
            forall i :: 0 <= i < |rooms| ==>
              (Scale(false, IsSelected(r, rooms[i].kind, rooms[i].id)) == 1.1 <==> rooms[i].kind == kind && rooms[i].id == id)
              && (Scale(false, IsSelected(r, rooms[i].kind, rooms[i].id)) == 1.0 <==> !(rooms[i].kind == kind && rooms[i].id == id))
  {
    ClickedSceneHighlights(s, kind, id, place);
  }

  /**
   * Every amenity room of the scene takes its record's own colour and position
   * when the record has them, and falls back to the grey default colour and to
   * the origin exactly when it lacks them (or already holds the default).
   */
  lemma SceneRoomDefaults(s: StoreState, place: int -> Vec3)
    ensures var rooms := SceneRooms(s, place);
            forall i :: 0 <= i < |s.internalExperiences| ==>
              var e := s.internalExperiences[i];
              (rooms[i].color == DefaultRoomColor <==> !Truthy(e.color) || e.color.value == DefaultRoomColor)
              && (Truthy(e.color) ==> rooms[i].color == e.color.value)
              && (rooms[i].position == Vec3(0.0, 0.0, 0.0) <==> e.position.None? || e.position.value == Vec3(0.0, 0.0, 0.0))
              && (e.position.Some? ==> rooms[i].position == e.position.value)
  {
  }
}

=== FILE: jsarray.dfy ===
/**
 * `Array.prototype.filter` over an arbitrary predicate, and the facts about it
 * that do not depend on what the predicate looks at.
 */
module JsArray {

  /** `a` can be obtained from `b` by deleting elements. */
  predicate IsSubsequence<T(==)>(a: seq<T>, b: seq<T>)
    decreases |b|
  {
    a == [] || (b != [] && ((a[0] == b[0] && IsSubsequence(a[1..], b[1..])) || IsSubsequence(a, b[1..])))
  }

  /** `r` holds every copy in `xs` of each element that passes `keep`, and no copy of any other. */
  ghost predicate KeepsEveryCopy<T(!new)>(r: seq<T>, xs: seq<T>, keep: T -> bool) {
    forall x {:trigger multiset(r)[x]} :: multiset(r)[x] == if keep(x) then multiset(xs)[x] else 0
  }

  /** The elements of `xs` that satisfy `keep`, in their original order. */
  function Filter<T(==,!new)>(xs: seq<T>, keep: T -> bool): (r: seq<T>)
    ensures IsSubsequence(r, xs)
    ensures |r| <= |xs|
    ensures forall x :: x in r <==> x in xs && keep(x)
    ensures KeepsEveryCopy(r, xs, keep)
  {
    if xs == [] then []
    else
      var rest := Filter(xs[1..], keep);
      assert forall x :: x in xs <==> x == xs[0] || x in xs[1..];
      assert xs == [xs[0]] + xs[1..];
      assert multiset(xs) == multiset{xs[0]} + multiset(xs[1..]);
      if keep(xs[0]) then [xs[0]] + rest else rest
  }

  /** The filter of a non-empty list: the head's verdict, then the rest. */
  lemma FilterCons<T(!new)>(x: T, xs: seq<T>, keep: T -> bool)
    ensures Filter([x] + xs, keep) == (if keep(x) then [x] else []) + Filter(xs, keep)
  {
    assert ([x] + xs)[1..] == xs;
  }

  /** Nothing is dropped exactly when every element passes. */
  lemma {:induction false} FilterIdentityIff<T(!new)>(xs: seq<T>, keep: T -> bool)
    ensures Filter(xs, keep) == xs <==> forall i :: 0 <= i < |xs| ==> keep(xs[i])
  {
    if forall i :: 0 <= i < |xs| ==> keep(xs[i]) {
      if xs != [] {
        assert forall i :: 0 <= i < |xs[1..]| ==> xs[1..][i] == xs[i + 1];
        FilterIdentityIff(xs[1..], keep);
        assert keep(xs[0]);
        assert [xs[0]] + xs[1..] == xs;
      }
    } else {
      var i :| 0 <= i < |xs| && !keep(xs[i]);
      assert xs[i] !in Filter(xs, keep);
    }
  }

  /** Everything is dropped exactly when no element passes. */
  lemma {:induction false} FilterEmptyIff<T(!new)>(xs: seq<T>, keep: T -> bool)
    ensures Filter(xs, keep) == [] <==> forall i :: 0 <= i < |xs| ==> !keep(xs[i])
  {
    if forall i :: 0 <= i < |xs| ==> !keep(xs[i]) {
      if xs != [] {
        assert forall i :: 0 <= i < |xs[1..]| ==> xs[1..][i] == xs[i + 1];
        FilterEmptyIff(xs[1..], keep);
      }
    } else {
      var i :| 0 <= i < |xs| && keep(xs[i]);
      assert xs[i] in Filter(xs, keep);
    }
  }

  /** A weaker predicate keeps a supersequence: whatever `strong` keeps, `weak` keeps too, in the same order. */
  lemma {:induction false} FilterMonotone<T(!new)>(xs: seq<T>, strong: T -> bool, weak: T -> bool)
    requires forall i :: 0 <= i < |xs| ==> strong(xs[i]) ==> weak(xs[i])
    ensures IsSubsequence(Filter(xs, strong), Filter(xs, weak))
  {
    if xs != [] {
      assert forall i :: 0 <= i < |xs[1..]| ==> xs[1..][i] == xs[i + 1];
      FilterMonotone(xs[1..], strong, weak);
      var s := Filter(xs[1..], strong);
      var w := Filter(xs[1..], weak);
      if strong(xs[0]) {
        assert weak(xs[0]);
        assert ([xs[0]] + s)[1..] == s;
        assert ([xs[0]] + w)[1..] == w;
      } else if weak(xs[0]) {
        assert ([xs[0]] + w)[1..] == w;
      }
    }
  }

  /** Three predicates that split `whole` element by element split its filtered length too. */
  lemma {:induction false} FilterSplitsInThree<T(!new)>(xs: seq<T>, p: T -> bool, q: T -> bool, r: T -> bool, whole: T -> bool)
    requires forall i :: 0 <= i < |xs| ==>
               (if p(xs[i]) then 1 else 0) + (if q(xs[i]) then 1 else 0) + (if r(xs[i]) then 1 else 0)
               == (if whole(xs[i]) then 1 else 0)
    ensures |Filter(xs, p)| + |Filter(xs, q)| + |Filter(xs, r)| == |Filter(xs, whole)|
  {
    if xs != [] {
      assert forall i :: 0 <= i < |xs[1..]| ==> xs[1..][i] == xs[i + 1];
      FilterSplitsInThree(xs[1..], p, q, r, whole);
      assert (if p(xs[0]) then 1 else 0) + (if q(xs[0]) then 1 else 0) + (if r(xs[0]) then 1 else 0)
             == (if whole(xs[0]) then 1 else 0);
    }
  }
}

=== FILE: jsparse.dfy ===
/**
 * The two JavaScript string primitives the distance filter relies on:
 * `s.split(' ')[0]` and `parseFloat`, the latter restricted to plain decimal
 * literals. A result of `None` stands for `NaN`.
 */
module JsParse {
  import opened Options

  /** The text before the first space (the whole string when it has none). */
  function FirstToken(s: string): (t: string)
    ensures |t| <= |s| && t == s[..|t|]
    ensures ' ' !in t
    ensures |t| < |s| ==> s[|t|] == ' '
  {
    if s == [] || s[0] == ' ' then [] else [s[0]] + FirstToken(s[1..])
  }

  predicate IsDigit(c: char) {
    '0' <= c <= '9'
  }

  predicate AllDigits(s: string) {
    forall i :: 0 <= i < |s| ==> IsDigit(s[i])
  }

  /** The white space `parseFloat` skips before the literal (ASCII part only). */
  predicate IsSpace(c: char) {
    c == ' ' || c == '\t' || c == '\n' || c == '\r' || c == '\U{B}' || c == '\U{C}'
  }

  function TrimStart(s: string): (t: string)
    ensures |t| <= |s| && t == s[|s| - |t|..]
    ensures t == [] || !IsSpace(t[0])
  {
    if s != [] && IsSpace(s[0]) then TrimStart(s[1..]) else s
  }

  /** Length of the longest run of digits at the front of `s`. */
  function LeadingDigits(s: string): (n: nat)
    ensures n <= |s|
    ensures AllDigits(s[..n])
    ensures n < |s| ==> !IsDigit(s[n])
  {
    if s != [] && IsDigit(s[0]) then 1 + LeadingDigits(s[1..]) else 0
  }

  function DigitValue(c: char): nat
    requires IsDigit(c)
  {
    (c as int) - ('0' as int)
  }

  /** The natural number a string of decimal digits denotes. */
  function DigitsValue(ds: string): nat
    requires AllDigits(ds)
  {
    if ds == [] then 0 else 10 * DigitsValue(ds[..|ds| - 1]) + DigitValue(ds[|ds| - 1])
  }

  function Pow10(n: nat): (p: nat)
    ensures p >= 1
  {
    if n == 0 then 1 else 10 * Pow10(n - 1)
  }

  /** The value of the decimal literal `ip.fp`. */
  function DecimalValue(ip: string, fp: string): real
    requires AllDigits(ip) && AllDigits(fp)
  {
    DigitsValue(ip) as real + DigitsValue(fp) as real / Pow10(|fp|) as real
  }

  /** Unsigned literal at the front of `s`: digits, optionally a point and more digits, at least one digit. */
  function ParseUnsigned(s: string): (v: Option<real>)
    ensures v.Some? ==> v.value >= 0.0
    ensures v.None? <==> s == [] || (!IsDigit(s[0]) && (s[0] != '.' || |s| == 1 || !IsDigit(s[1])))
  {
    var a := LeadingDigits(s);
    var ip := s[..a];
    var after := s[a..];
    if after != [] && after[0] == '.' then
      var frac := after[1..];
      var b := LeadingDigits(frac);
      if a + b == 0 then None else Some(DecimalValue(ip, frac[..b]))
    else if a == 0 then None
    else Some(DigitsValue(ip) as real)
  }

  /**
   * `parseFloat(s)`: skip leading white space, read an optional sign and the
   * longest decimal literal; `None` (NaN) when there is no digit to read.
   */
  function ParseFloat(s: string): (v: Option<real>)
    ensures var t := TrimStart(s);
            var signed := t != [] && (t[0] == '-' || t[0] == '+');
            var u := ParseUnsigned(if signed then t[1..] else t);
            (v.None? <==> u.None?)
            && (u.Some? ==> v == Some(if signed && t[0] == '-' then -u.value else u.value))
  {
    ParseSigned(TrimStart(s))
  }

  /** An optional sign, then an unsigned literal. */
  function ParseSigned(t: string): Option<real> {
    if t != [] && t[0] == '-' then
      match ParseUnsigned(t[1..])
      case Some(x) => Some(-x)
      case None => None
    else if t != [] && t[0] == '+' then ParseUnsigned(t[1..])
    else ParseUnsigned(t)
  }

  /**
   * A literal `ip.fp` with a digit on at least one side of the point (so `.5`
   * and `5.` too), followed by anything that is not a digit, parses to its
   * decimal value.
   */
  lemma {:induction false} ParseDecimalLiteral(ip: string, fp: string, rest: string)
    requires ip != [] || fp != []
    requires AllDigits(ip) && AllDigits(fp)
    requires rest == [] || !IsDigit(rest[0])
    ensures ParseFloat(ip + "." + fp + rest) == Some(DecimalValue(ip, fp))
  {
    var s := ip + "." + fp + rest;
    assert s[0] == if ip != [] then ip[0] else '.';
    NoTrimBeforeLiteral(s);
    UnsignedDecimal(ip, fp, rest);
  }

  /** A string that starts with a digit or a point parses as an unsigned literal. */
  lemma NoTrimBeforeLiteral(s: string)
    requires s != [] && (IsDigit(s[0]) || s[0] == '.')
    ensures ParseFloat(s) == ParseUnsigned(s)
  {
    assert TrimStart(s) == s;
  }

  lemma {:induction false} UnsignedDecimal(ip: string, fp: string, rest: string)
    requires ip != [] || fp != []
    requires AllDigits(ip) && AllDigits(fp)
    requires rest == [] || !IsDigit(rest[0])
    ensures ParseUnsigned(ip + "." + fp + rest) == Some(DecimalValue(ip, fp))
  {
    var tail := "." + fp + rest;
    var s := ip + tail;
    assert ip + "." + fp + rest == s;
    LeadingDigitsOfPrefix(ip, tail);
    assert s[..|ip|] == ip;
    assert s[|ip|..] == tail;
    var frac := fp + rest;
    assert tail[0] == '.';
    assert tail[1..] == frac;
    LeadingDigitsOfPrefix(fp, rest);
    assert frac[..|fp|] == fp;
  }

  /** A digit string followed by anything that is neither a digit nor a point parses to its value. */
  lemma {:induction false} ParseIntegerLiteral(ip: string, rest: string)
    requires ip != [] && AllDigits(ip)
    requires rest == [] || (!IsDigit(rest[0]) && rest[0] != '.')
    ensures ParseFloat(ip + rest) == Some(DigitsValue(ip) as real)
  {
    var s := ip + rest;
    assert s[0] == ip[0];
    NoTrimBeforeLiteral(s);
    UnsignedInteger(ip, rest);
  }

  lemma {:induction false} UnsignedInteger(ip: string, rest: string)
    requires ip != [] && AllDigits(ip)
    requires rest == [] || (!IsDigit(rest[0]) && rest[0] != '.')
    ensures ParseUnsigned(ip + rest) == Some(DigitsValue(ip) as real)
  {
    var s := ip + rest;
    LeadingDigitsOfPrefix(ip, rest);
    assert s[..|ip|] == ip;
    assert s[|ip|..] == rest;
  }

  /** White space in front of a literal does not change its value. */
  lemma {:induction false} LeadingSpaceIgnored(w: string, s: string)
    requires forall i :: 0 <= i < |w| ==> IsSpace(w[i])
    ensures ParseFloat(w + s) == ParseFloat(s)
  {
    TrimStartSkipsSpace(w, s);
    assert ParseFloat(w + s) == ParseSigned(TrimStart(w + s));
  }

  lemma {:induction false} TrimStartSkipsSpace(w: string, s: string)
    requires forall i :: 0 <= i < |w| ==> IsSpace(w[i])
    ensures TrimStart(w + s) == TrimStart(s)
    decreases |w|
  {
    if w != [] {
      assert (w + s)[0] == w[0];
      assert (w + s)[1..] == w[1..] + s;
      TrimStartSkipsSpace(w[1..], s);
    } else {
      assert w + s == s;
    }
  }

  /** A sign in front of an unsigned literal: `-` negates its value, `+` keeps it; NaN stays NaN. */
  lemma SignedLiteral(u: string)
    ensures ParseFloat("+" + u) == ParseUnsigned(u)
    ensures ParseFloat("-" + u).None? <==> ParseUnsigned(u).None?
    ensures ParseUnsigned(u).Some? ==> ParseFloat("-" + u) == Some(-ParseUnsigned(u).value)
  {
    assert TrimStart("+" + u) == "+" + u && ("+" + u)[1..] == u;
    assert TrimStart("-" + u) == "-" + u && ("-" + u)[1..] == u;
  }

  /** A token that starts with anything other than white space, a sign, a digit or a point is NaN. */
  lemma StrayLeadingCharIsNaN(s: string)
    requires s != [] && !IsSpace(s[0]) && !IsDigit(s[0]) && s[0] !in "+-."
    ensures ParseFloat(s) == None
  {
  }

  lemma {:induction false} LeadingDigitsOfPrefix(ds: string, rest: string)
    requires AllDigits(ds)
    requires rest == [] || !IsDigit(rest[0])
    ensures LeadingDigits(ds + rest) == |ds|
    decreases |ds|
  {
    if ds != [] {
      assert (ds + rest)[1..] == ds[1..] + rest;
      LeadingDigitsOfPrefix(ds[1..], rest);
    } else {
      assert ds + rest == rest;
    }
  }
}

=== FILE: options.dfy ===
/** Optional values and the JavaScript `||` fallback on them. */
module Options {

  /** A value that may be absent: `undefined` or `null` in the application. */
  datatype Option<+T> = None | Some(value: T) {

    /** The value when present, otherwise `default`. */
    function GetOr(default: T): T {
      match this
      case Some(v) => v
      case None => default
    }
  }

  /** JavaScript truthiness of an optional string: absent and empty are falsy. */
  predicate Truthy(o: Option<string>) {
    o.Some? && o.value != ""
  }

  /** `o || d` for an optional string: the string when it is truthy, else `d`. */
  function OrElse(o: Option<string>, d: string): (r: string)
    ensures Truthy(o) ==> r == o.value
    ensures !Truthy(o) ==> r == d
    ensures r == "" ==> !Truthy(o) && d == ""
  {
    if Truthy(o) then o.value else d
  }
}

=== FILE: store.dfy ===
/**
 * The application state record, its initial value, its eight setters and the
 * subset of it that is persisted across reloads.
 *
 * The store is a value: each setter is a pure function from the old record to
 * the new one. Subscriber notification is not part of the model.
 */
module Store {
  import opened Options

  /** A 3D position of an internal experience. */
  datatype Vec3 = Vec3(x: real, y: real, z: real)

  /** Geographic coordinates of an external experience (never used for layout). */
  datatype LatLng = LatLng(lat: real, lng: real)

  /**
   * One experience. The same record shape serves both categories: amenities
   * carry a title, position and colour, restaurants a name, distance, rating,
   * cuisine and price range. Only `id` is mandatory.
   */
  datatype Experience = Experience(
    id: int,
    title: Option<string>,
    name: Option<string>,
    description: Option<string>,
    image: Option<string>,
    distance: Option<string>,
    rating: Option<real>,
    cuisine: Option<string>,
    position: Option<Vec3>,
    color: Option<string>,
    coordinates: Option<LatLng>,
    priceRange: Option<string>)

  /** The nine data fields of the store. */
  datatype StoreState = StoreState(
    selectedExperience: Option<Experience>,
    selectedInternalRoom: Option<int>,
    selectedExternalRoom: Option<int>,
    internalExperiences: seq<Experience>,
    externalExperiences: seq<Experience>,
    isAuthenticated: bool,
    isLoading: bool,
    distanceFilter: string,
    ratingFilter: real)

  /** Names of the nine fields, so that "which fields changed" can be stated. */
  datatype Field =
    | SelectedExperience
    | SelectedInternalRoom
    | SelectedExternalRoom
    | InternalExperiences
    | ExternalExperiences
    | IsAuthenticated
    | IsLoading
    | DistanceFilter
    | RatingFilter

  /** The fields on which two records differ; empty exactly when they are equal. */
  function Changed(s: StoreState, t: StoreState): (d: set<Field>)
    ensures d == {} <==> s == t
  {
    (if s.selectedExperience != t.selectedExperience then {SelectedExperience} else {})
    + (if s.selectedInternalRoom != t.selectedInternalRoom then {SelectedInternalRoom} else {})
    + (if s.selectedExternalRoom != t.selectedExternalRoom then {SelectedExternalRoom} else {})
    + (if s.internalExperiences != t.internalExperiences then {InternalExperiences} else {})
    + (if s.externalExperiences != t.externalExperiences then {ExternalExperiences} else {})
    + (if s.isAuthenticated != t.isAuthenticated then {IsAuthenticated} else {})
    + (if s.isLoading != t.isLoading then {IsLoading} else {})
    + (if s.distanceFilter != t.distanceFilter then {DistanceFilter} else {})
    + (if s.ratingFilter != t.ratingFilter then {RatingFilter} else {})
  }

  /** Neither selection marker is set together with the other. */
  predicate MarkersExclusive(s: StoreState) {
    s.selectedInternalRoom == None || s.selectedExternalRoom == None
  }

  /** The record the store is created with. */
  function Initial(): (s: StoreState)
    ensures s.selectedExperience == None
    ensures s.selectedInternalRoom == None && s.selectedExternalRoom == None
    ensures s.internalExperiences == [] && s.externalExperiences == []
    ensures !s.isAuthenticated && s.isLoading
    ensures s.distanceFilter == "all" && s.ratingFilter == 0.0
    ensures MarkersExclusive(s)
  {
    StoreState(None, None, None, [], [], false, true, "all", 0.0)
  }

  // The eight setters. None validates its argument.

  function SetSelectedExperience(s: StoreState, experience: Option<Experience>): (r: StoreState)
    ensures r.selectedExperience == experience
    ensures Changed(s, r) <= {SelectedExperience}
  {
    s.(selectedExperience := experience)
  }

  function SetSelectedInternalRoom(s: StoreState, roomId: Option<int>): (r: StoreState)
    ensures r.selectedInternalRoom == roomId
    ensures Changed(s, r) <= {SelectedInternalRoom}
  {
    s.(selectedInternalRoom := roomId)
  }

  function SetSelectedExternalRoom(s: StoreState, roomId: Option<int>): (r: StoreState)
    ensures r.selectedExternalRoom == roomId
    ensures Changed(s, r) <= {SelectedExternalRoom}
  {
    s.(selectedExternalRoom := roomId)
  }

  function SetExperiences(s: StoreState, internal: seq<Experience>, external: seq<Experience>): (r: StoreState)
    ensures r.internalExperiences == internal && r.externalExperiences == external
    ensures Changed(s, r) <= {InternalExperiences, ExternalExperiences}
  {
    s.(internalExperiences := internal, externalExperiences := external)
  }

  function SetAuthenticated(s: StoreState, auth: bool): (r: StoreState)
    ensures r.isAuthenticated == auth
    ensures Changed(s, r) <= {IsAuthenticated}
  {
    s.(isAuthenticated := auth)
  }

  function SetLoading(s: StoreState, loading: bool): (r: StoreState)
    ensures r.isLoading == loading
    ensures Changed(s, r) <= {IsLoading}
  {
    s.(isLoading := loading)
  }

  function SetDistanceFilter(s: StoreState, filter: string): (r: StoreState)
    ensures r.distanceFilter == filter
    ensures Changed(s, r) <= {DistanceFilter}
  {
    s.(distanceFilter := filter)
  }

  function SetRatingFilter(s: StoreState, filter: real): (r: StoreState)
    ensures r.ratingFilter == filter
    ensures Changed(s, r) <= {RatingFilter}
  {
    s.(ratingFilter := filter)
  }

  /** Applying any setter a second time with the same argument changes nothing. */
  lemma SettersIdempotent(s: StoreState, e: Option<Experience>, room: Option<int>,
                          internal: seq<Experience>, external: seq<Experience>,
                          flag: bool, filter: string, threshold: real)
    ensures SetSelectedExperience(SetSelectedExperience(s, e), e) == SetSelectedExperience(s, e)
    ensures SetSelectedInternalRoom(SetSelectedInternalRoom(s, room), room) == SetSelectedInternalRoom(s, room)
    ensures SetSelectedExternalRoom(SetSelectedExternalRoom(s, room), room) == SetSelectedExternalRoom(s, room)
    ensures SetExperiences(SetExperiences(s, internal, external), internal, external)
            == SetExperiences(s, internal, external)
    ensures SetAuthenticated(SetAuthenticated(s, flag), flag) == SetAuthenticated(s, flag)
    ensures SetLoading(SetLoading(s, flag), flag) == SetLoading(s, flag)
    ensures SetDistanceFilter(SetDistanceFilter(s, filter), filter) == SetDistanceFilter(s, filter)
    ensures SetRatingFilter(SetRatingFilter(s, threshold), threshold) == SetRatingFilter(s, threshold)
  {
  }

  // ----- Persistence -----

  /** The persisted subset of the store. */
  datatype Persisted = Persisted(
    selectedExperience: Option<Experience>,
    isAuthenticated: bool,
    distanceFilter: string,
    ratingFilter: real)

  /** The fields that reach durable storage. */
  const PersistedFields: set<Field> := {SelectedExperience, IsAuthenticated, DistanceFilter, RatingFilter}

  /** The record written to durable storage after every change. */
  function Partialize(s: StoreState): (p: Persisted)
    ensures p.selectedExperience == s.selectedExperience
    ensures p.isAuthenticated == s.isAuthenticated
    ensures p.distanceFilter == s.distanceFilter
    ensures p.ratingFilter == s.ratingFilter
  {
    Persisted(s.selectedExperience, s.isAuthenticated, s.distanceFilter, s.ratingFilter)
  }

  /**
   * The store after a reload: the persisted record merged over the initial
   * state, field by field (the persistence layer's default shallow merge).
   */
  function Rehydrate(p: Persisted): (s: StoreState)
    ensures Changed(Initial(), s) <= PersistedFields
  {
    Initial().(selectedExperience := p.selectedExperience, isAuthenticated := p.isAuthenticated,
               distanceFilter := p.distanceFilter, ratingFilter := p.ratingFilter)
  }

  /** Two records persist identically exactly when they agree on the four persisted fields. */
  lemma PartializeDependsOnlyOnPersisted(s: StoreState, t: StoreState)
    ensures Partialize(s) == Partialize(t) <==> Changed(s, t) * PersistedFields == {}
  {
    if Partialize(s) != Partialize(t) {
      if s.selectedExperience != t.selectedExperience {
        assert SelectedExperience in Changed(s, t) * PersistedFields;
      } else if s.isAuthenticated != t.isAuthenticated {
        assert IsAuthenticated in Changed(s, t) * PersistedFields;
      } else if s.distanceFilter != t.distanceFilter {
        assert DistanceFilter in Changed(s, t) * PersistedFields;
      } else {
        assert RatingFilter in Changed(s, t) * PersistedFields;
      }
    }
  }

  /** Setters of collections, room markers and the loading flag never change what is persisted. */
  lemma TransientSettersPreservePersisted(s: StoreState, internal: seq<Experience>, external: seq<Experience>,
                                          room: Option<int>, loading: bool)
    ensures Partialize(SetExperiences(s, internal, external)) == Partialize(s)
    ensures Partialize(SetSelectedInternalRoom(s, room)) == Partialize(s)
    ensures Partialize(SetSelectedExternalRoom(s, room)) == Partialize(s)
    ensures Partialize(SetLoading(s, loading)) == Partialize(s)
  {
  }

  /** Reloading restores exactly what was persisted, and resets everything else to its initial value. */
  lemma {:induction false} ReloadRoundTrip(s: StoreState, p: Persisted)
    ensures Partialize(Rehydrate(p)) == p
    ensures Partialize(Rehydrate(Partialize(s))) == Partialize(s)
    ensures Changed(s, Rehydrate(Partialize(s))) * PersistedFields == {}
    ensures Changed(Initial(), Rehydrate(Partialize(s))) <= PersistedFields
  {
    PartializeDependsOnlyOnPersisted(s, Rehydrate(Partialize(s)));
  }
}
